=== FILE: README.md ===
# learning-backend-with-go, modelled in Dafny

This project models the logic at the heart of the learning-backend-with-go
exercises. Each part is a pure Dafny function or method that returns a new
state together with its result.

- The library manager (`library.dfy`) keeps books and members in maps. Borrowing and returning move a book between the shelf and a member's borrowed map.
- The in-memory task store (`task_store.dfy`) holds the seeded task list and the next-ID counter.
- The clean-architecture task domain has three layers:
  - validation and the six error kinds (`domain.dfy`);
  - the task use-cases over an abstract repository (`task_usecases.dfy`);
  - the HTTP controller's mapping from error kinds to responses (`controller.dfy`).
- User registration, login and promotion of the authenticated task manager (`user_service.dfy`) run over a user collection whose driver faults are inputs.
- The two-pointer palindrome check (`palindrome.dfy`) runs over bytes; its scan is the one part of the model written with loops.
- Word-frequency counting (`word_frequency.dfy`) is modelled as written, alongside the rewrite its comment describes.
- The letter-grade step function and the grade range check (`grades.dfy`).
- `common.dfy` holds `Option`, a `byte` type, the document identifier and the ascending key list. Go leaves the order of map iteration unspecified. Every listing built by ranging over a map therefore comes out in ascending key order here, and its contract promises only membership and count.

Calls the model cannot see are parameters:
- bcrypt hashing and comparison;
- the Unicode tables;
- the database driver and its faults;
- the repository behind the use-cases;
- the current time.

## Model

| member | source | states |
|---|---|---|
| LibraryService.NewLibrary | library_management_system/services/library_service.go:27-32 | the new library is empty: it keeps every entry under its own ID, has no available books, and every borrow fails with "book not found" |
| LibraryService.AddMember | library_management_system/services/library_service.go:34-36 | the member is stored under its ID, replacing any earlier entry; other members and all books are unchanged |
| LibraryService.RemoveMember | library_management_system/services/library_service.go:38-44 | only that ID's entry goes; an absent ID leaves the library exactly as it was; books are unchanged |
| LibraryService.AddBook | library_management_system/services/library_service.go:46-48 | the book is stored under its ID, overwriting any earlier entry; other books and all members are unchanged |
| LibraryService.RemoveBook | library_management_system/services/library_service.go:50-52 | only that ID's entry goes; an absent ID is a no-op; members, and the books they hold, are untouched |
| LibraryService.BorrowBook | library_management_system/services/library_service.go:54-75 | errors come in order: missing book, missing member, already borrowed. Any error leaves the library unchanged. Success happens exactly when the book is known, the member is known and the book is not Borrowed. On success the book becomes Borrowed both on the shelf and in that member's map, and nothing else changes |
| LibraryService.ReturnBook | library_management_system/services/library_service.go:77-96 | errors come in order: missing book, missing member, not borrowed. Any error leaves the library unchanged. On success the book is Available again and is removed from that member's map, even when some other member borrowed it |
| LibraryService.ListAvailableBooks | library_management_system/services/library_service.go:98-106 | lists exactly the Available books, each as many times as there are IDs holding it, so with no duplicates when every book is stored under its own ID |
| LibraryService.ListBorrowedBooks | library_management_system/services/library_service.go:108-119 | an unknown member gives the empty list; otherwise exactly the books in that member's borrowed map, each as many times as there are keys holding it |
| LibraryService.SharedCopyListedTwice | library_management_system/services/library_service.go:108-119 | a member added with one copy under two keys of its borrowed map gets that copy listed twice |
| LibraryService.BorrowThenReturn | library_management_system/services/library_service.go:54-96 | for an Available book the member does not hold, borrowing then returning restores the library exactly |
| LibraryService.BorrowTwiceFails | library_management_system/services/library_service.go:64-66 | after a successful borrow, a second borrow of that book by any known member fails with "book already borrowed" |
| LibraryService.BorrowMovesBetweenLists | library_management_system/services/library_service.go:54-119 | a successful borrow takes the book off the available list and puts it on the borrower's list |
| TaskStore.FirstIndex | task_manager/data/task_service.go:22-29 | the linear scan finds the first task with the ID, or reports that none has it |
| TaskStore.SeedIsValid | task_manager/data/task_service.go:8-16 | the five seeded tasks have distinct IDs, all below the initial counter 6 |
| TaskStore.GetTasks | task_manager/data/task_service.go:18-20 | the stored list itself, whose IDs are distinct in a valid store |
| TaskStore.GetTaskById | task_manager/data/task_service.go:22-29 | fails with "task not found" exactly when no task has the ID; otherwise returns the first task with it |
| TaskStore.CreateTask | task_manager/data/task_service.go:31-36 | the client's ID is replaced by the counter; the task is appended; the counter grows by one; validity is kept and the new ID is fresh |
| TaskStore.Merge | task_manager/data/task_service.go:42-53 | each field of the update replaces the stored field only when it is non-empty; the ID never changes |
| TaskStore.UpdateTask | task_manager/data/task_service.go:38-59 | fails with "task not found" and no change exactly when the ID is absent; otherwise only the first match is merged and returned |
| TaskStore.DeleteTask | task_manager/data/task_service.go:61-69 | fails exactly when the ID is absent; otherwise removes the first match, keeping the order of the rest and the counter |
| TaskStore.MergeEmptyIsIdentity | task_manager/data/task_service.go:42-53 | an update with every field empty changes nothing |
| TaskStore.MergeIdempotent | task_manager/data/task_service.go:42-53 | applying the same update twice equals applying it once |
| TaskStore.CreateThenGet | task_manager/data/task_service.go:22-36 | a created task is found by its assigned ID |
| TaskStore.UpdateThenGet | task_manager/data/task_service.go:22-59 | after an update, a lookup returns the merged task |
| TaskStore.DeleteThenGet | task_manager/data/task_service.go:22-69 | after a delete, the ID is gone in a valid store |
| Domain.Validate | task_manager_with_clean_architecture/Domain/domain.go:24-50 | no error exactly when the task is acceptable; otherwise the message of the first rule broken, in the order title, due date, status present, status value, completed-not-yet-due, pending-overdue |
| Domain.DueNowPasses | task_manager_with_clean_architecture/Domain/domain.go:41-47 | a due date equal to the current instant passes both time rules, since both comparisons are strict |
| Domain.PendingExpires | task_manager_with_clean_architecture/Domain/domain.go:45-47 | a pending task valid now is refused once the clock passes its due date |
| TaskUsecases.CreateTask | task_manager_with_clean_architecture/Usecases/task_usecases.go:30-44 | a validation failure becomes a bad request and never reaches the repository; a taken title is refused with "Task already exists"; a failed listing is ignored; every error made by this layer is a bad request with the store unchanged; anything else is the repository's create |
| TaskUsecases.GetTask | task_manager_with_clean_architecture/Usecases/task_usecases.go:47-49 | the repository's result, unvalidated and unmapped |
| TaskUsecases.GetTasks | task_manager_with_clean_architecture/Usecases/task_usecases.go:52-54 | the repository's result, unvalidated and unmapped |
| TaskUsecases.UpdateTask | task_manager_with_clean_architecture/Usecases/task_usecases.go:57-63 | a validation failure becomes a bad request with the store unchanged; otherwise the repository's update, with no title check |
| TaskUsecases.DeleteTask | task_manager_with_clean_architecture/Usecases/task_usecases.go:66-68 | the repository's result |
| TaskUsecases.SecondCreateWithSameTitleFails | task_manager_with_clean_architecture/Usecases/task_usecases.go:35-43 | over a repository that lists what it creates, a second create with the same title is refused and stores nothing |
| TaskUsecases.UpdateIgnoresTitleClash | task_manager_with_clean_architecture/Usecases/task_usecases.go:30-63 | a title that create would refuse still goes through update |
| Controller.CreateTask | task_manager_with_clean_architecture/Delivery/controllers/controller.go:37-58 | a bind error gives 400 with its message; success gives 201; bad-request and internal errors map to 400 and 500; any other kind writes nothing |
| Controller.GetTask | task_manager_with_clean_architecture/Delivery/controllers/controller.go:60-80 | a bad hex ID gives 400; success gives 200 with the task; not-found and internal errors map to 404 and 500; any other kind writes nothing |
| Controller.GetTasks | task_manager_with_clean_architecture/Delivery/controllers/controller.go:82-96 | 200 with the list; not-found and internal errors map to 404 and 500; any other kind writes nothing |
| Controller.UpdateTask | task_manager_with_clean_architecture/Delivery/controllers/controller.go:98-127 | the ID is parsed before the body is bound; success gives 200; bad-request, not-found and internal errors map to 400, 404 and 500; any other kind writes nothing |
| Controller.DeleteTask | task_manager_with_clean_architecture/Delivery/controllers/controller.go:129-149 | a bad hex ID gives 400; success gives 200; not-found and internal errors map to 404 and 500; any other kind writes nothing |
| Controller.Register | task_manager_with_clean_architecture/Delivery/controllers/controller.go:151-173 | a bind error gives 400; success gives 201; bad-request and internal errors map to 400 and 500; any other kind writes nothing |
| Controller.Login | task_manager_with_clean_architecture/Delivery/controllers/controller.go:175-196 | a bind error gives 400; success gives 200 with the token; bad-request and internal errors map to 400 and 500; an unauthorized error writes nothing |
| Controller.PromoteUser | task_manager_with_clean_architecture/Delivery/controllers/controller.go:198-220 | a bind error gives 400; success gives 200; not-found and internal errors map to 404 and 500; any other kind writes nothing |
| Controller.UnmappedKindsWriteNothing | task_manager_with_clean_architecture/Delivery/controllers/controller.go:37-196 | error kinds outside a handler's type switch produce no response |
| Controller.ParseFailureIgnoresUsecase | task_manager_with_clean_architecture/Delivery/controllers/controller.go:37-43 | a request that fails to bind is answered without consulting the use-case |
| Controller.CreateTaskEndpoint | task_manager_with_clean_architecture/Delivery/controllers/controller.go:37-58 | handler over use-case: an invalid task gives 400 with the validation message and an unchanged store; a 201 always comes with the repository's new store |
| UserService.FirstWith | task_manager_with_auth/data/user_service.go:37-84 | the filter matches the first user with that username or ID, or none |
| UserService.FindByUsername | task_manager_with_auth/data/user_service.go:37-73 | a driver fault surfaces, and the lookup fails only then; without one it finds a user with that name exactly when somebody has it, which one unspecified since the lookup has no sort order, and reports not-found otherwise |
| UserService.CreateUser | task_manager_with_auth/data/user_service.go:34-66 | a taken username is refused; any failed step leaves the collection unchanged; success happens exactly when the name is free and hashing, counting and inserting succeed; a failed hash, count or insert returns that step's error unchanged. On success one user is appended, storing the hash and never the plaintext, with role "admin" exactly when the collection was empty |
| UserService.AuthenticateUser | task_manager_with_auth/data/user_service.go:68-81 | succeeds exactly when the lookup finds a user and the comparison accepts the password against that user's stored hash, and then returns that very user; otherwise the lookup's error, the no-documents error, or whatever error the comparison reports, passed through unchanged |
| UserService.PromoteUser | task_manager_with_auth/data/user_service.go:83-89 | only the role of the user with that ID becomes "admin"; an unknown ID is not an error; a driver fault changes nothing |
| UserService.PromoteTwiceIsOnce | task_manager_with_auth/data/user_service.go:83-89 | promoting the same ID a second time changes nothing more |
| UserService.FirstUserIsAdmin | task_manager_with_auth/data/user_service.go:50-60 | the first user registered is an admin and the next is a plain user |
| UserService.RegisterThenAuthenticate | task_manager_with_auth/data/user_service.go:34-81 | registering then logging in with the same password finds the new user, when the comparison accepts the hash made from that password |
| UserService.LoginErrorsDiffer | task_manager_with_auth/data/user_service.go:70-78 | when the comparison reports bcrypt's mismatch error, a wrong password and an unknown username fail with different errors |
| Palindrome.SkipLeft | fundamentals_of_go/palindrome_check.go:8-10 | the left index stops at a letter or at the right index, and the letters of the window are unchanged |
| Palindrome.SkipRight | fundamentals_of_go/palindrome_check.go:11-13 | the right index stops at a letter or at the left index, and the letters of the window are unchanged |
| Palindrome.ScanStep | fundamentals_of_go/palindrome_check.go:7-19 | one pass of the outer loop either finds two different letters, so no palindrome, or shrinks the window without changing the answer |
| Palindrome.PalIsOwnReverse | fundamentals_of_go/palindrome_check.go:5-21 | the mirror-image test the scan performs is the same as being equal to one's reverse |
| Palindrome.IsPalindrome | fundamentals_of_go/palindrome_check.go:5-21 | true exactly when the letters of the string, compared byte for byte with no case folding, read the same backwards |
| Palindrome.ShortStringsArePalindromes | fundamentals_of_go/palindrome_check.go:6-7 | the empty string and single-byte strings are palindromes |
| Palindrome.Examples | fundamentals_of_go/palindrome_check.go:5-21 | "aa" and "aba" are palindromes; "ab", "abc" and "abA" are not, because no case folding happens |
| Palindrome.StepInward | fundamentals_of_go/palindrome_check.go:14-19 | equal letter ends can be dropped without changing whether the window is a palindrome |
| Palindrome.EndsDiffer | fundamentals_of_go/palindrome_check.go:14-16 | different letter ends rule out a palindrome |
| WordFrequency.Rewrite | fundamentals_of_go/word_frequency_count.go:13-19 | every non-punctuation rune becomes a space, and every punctuation rune is kept, lowercased |
| WordFrequency.Fields | fundamentals_of_go/word_frequency_count.go:22 | every field is non-empty and free of white space; text that is all white space has no fields, and non-empty text without white space is a single field, itself |
| WordFrequency.FieldsSplit | fundamentals_of_go/word_frequency_count.go:22 | a white-space rune separates: the fields of `a + [sp] + b` are the fields of `a` followed by those of `b`. Since every text is a series of white-space-free pieces joined by white space, this and the two cases above fix the fields as the maximal white-space-free slices, in order |
| WordFrequency.Count | fundamentals_of_go/word_frequency_count.go:23-25 | the keys are exactly the words, and each count is that word's number of occurrences, at least 1 |
| WordFrequency.WordFrequency | fundamentals_of_go/word_frequency_count.go:8-28 | the keys are exactly the fields of the rewritten text, each mapped to its number of occurrences, at least 1 |
| WordFrequency.FieldsArePunctuationRuns | fundamentals_of_go/word_frequency_count.go:13-22 | the fields of the rewritten text are exactly the lowercased maximal runs of punctuation, in order |
| WordFrequency.KeysArePunctuationRuns | fundamentals_of_go/word_frequency_count.go:8-27 | the keys are exactly the lowercased punctuation runs, each counted as often as it occurs |
| WordFrequency.NoPunctuationNoKeys | fundamentals_of_go/word_frequency_count.go:14-22 | an input with no punctuation, the empty input included, gives the empty map |
| WordFrequency.CountsSumToFields | fundamentals_of_go/word_frequency_count.go:22-25 | every count is positive and the counts sum to the number of fields |
| WordFrequency.SingleLetterShowsInversion | fundamentals_of_go/word_frequency_count.go:11-18 | for the input "a", the code as written gives the empty map, while the rewrite the comment describes gives {"a": 1} |
| WordFrequency.IntendedRewrite | fundamentals_of_go/word_frequency_count.go:11 | position by position, punctuation becomes a space and every other rune is lowercased |
| WordFrequency.IntendedWordFrequency | fundamentals_of_go/word_frequency_count.go:11-25 | under that rewrite, the keys are exactly the fields, each mapped to its number of occurrences, at least 1 |
| WordFrequency.IntendedKeysAreWords | fundamentals_of_go/word_frequency_count.go:11 | with punctuation turned into spaces, the fields are the lowercased maximal runs of runes that are neither punctuation nor white space, in order |
| WordFrequency.IntendedCountsWords | fundamentals_of_go/word_frequency_count.go:11-24 | with punctuation turned into spaces, the keys are exactly those lowercased words and each maps to how often it occurs |
| GradeCalculator.IsValidGrade | student_grade_calculator/main.go:76-78 | accepts exactly the closed range from 0, the floor of F, to 100 |
| GradeCalculator.EveryLetterAccepted | student_grade_calculator/main.go:76-108 | the range check excludes no letter: each letter's lowest score is an accepted grade that earns it |
| GradeCalculator.GradeOf | student_grade_calculator/main.go:80-109 | the computed letter's half-open band contains the score |
| GradeCalculator.GradeText | student_grade_calculator/main.go:80-109 | total, and always one of A, A-, B+, B, B-, C+, C, C-, D, F |
| GradeCalculator.BandIsUnique | student_grade_calculator/main.go:80-109 | a score lies in a letter's band exactly when that letter is the one computed |
| GradeCalculator.Monotone | student_grade_calculator/main.go:80-109 | a higher score never earns a lower letter |
| GradeCalculator.TextIsInjective | student_grade_calculator/main.go:81-108 | distinct letters print differently |
| GradeCalculator.Extremes | student_grade_calculator/main.go:76-108 | a score of 85 or more gives "A", below 40 gives "F"; the valid range's ends are graded A and F |

## Left out

- Concurrency: the package-level task list and counter are not guarded, and the model is sequential.
- Integer width: `TaskStore.CreateTask` does not model the 64-bit overflow of the ID counter, which would need 2^63 creations.
- Nil maps: a member added with a nil borrowed map makes `BorrowBook` panic in the source. The model's maps are always present.
- Map aliasing: in the source, two member records that share one borrowed map see each other's changes. The model gives each member its own map.
- Map iteration order: `ListAvailableBooks` and `ListBorrowedBooks` come out in ascending ID order here. Their contracts say nothing about order, so they hold for any order Go picks.
- A nil slice is modelled as the empty sequence.
- ID uniqueness: a client may supply a user's ID, and rejecting a duplicate is the job of MongoDB's unique `_id` index. The model's insert fails only when told to, so a collection can hold two users with one ID, where `UpdateOne` would still promote only one of them.
- Slice aliasing: `GetTasks` of task_manager returns the package slice itself, so a caller holding it sees later in-place updates and the shift a delete makes. The model returns a value; the one caller serialises the slice at once.
- UserService.FindByUsername: the model returns the first user with the name, while the lookup promises no particular one; the contract leaves which matching user is returned open.
- MongoDB repositories, the driver, and the `UpdateOne`/`DeleteOne` not-found branches stay abstract. The repository is the five-function record `TaskRepository`, and the user collection is a sequence whose faults are inputs.
- bcrypt, JWT and the clock are parameters. The salt's randomness is folded into the `hasher` given to each call.
- `Domain.DomainError.Error` returns the message field and carries no contract of its own.
- A handler that writes nothing (`NoWrite`) is answered by the web framework with its default status. That behaviour is not part of this model.
- UTF-8: `WordFrequency` takes a string that is already decoded into runes, and its keys are rune sequences. Invalid byte sequences are not modelled.
- `Palindrome.IsPalindrome` gets `unicode.IsLetter` of a byte as the `isLetter` parameter. `IsLatin1Letter` is the table that call uses, since a byte always converts to a rune below 256.
- `GradeCalculator`: NaN and the infinities are excluded, since scores are reals.
- `calculateAverageGrade` and the standard-input loops of the grade calculator are not modelled. They are float division and I/O.
- Routers, every `main`, the simple gin controllers and the library's console menu are wiring and I/O.
- The auth controller passes a username where `PromoteUser` expects an ID, so it does not type-check. It is not modelled.
- Two test files expect behaviour the code does not have. `palindrome_check_test.go:16` expects "abA" to be a palindrome. The word-frequency tests expect word keys. The model follows the code; see `Palindrome.Examples` and the finding below.

## Findings

| source | as written | input that shows it | evidently intended | confidence | as-written member | corrected member |
|---|---|---|---|---|---|---|
| fundamentals_of_go/word_frequency_count.go:14-18 | non-punctuation runes become spaces and punctuation runes are kept, so the keys are runs of punctuation | "a" gives the empty map | punctuation becomes a space and every other rune is lowercased, as the comment on line 11 says, so "a" gives {"a": 1} | high; not executed | WordFrequency.SingleLetterShowsInversion | WordFrequency.IntendedKeysAreWords |

=== FILE: common.dfy ===
/** Small shared vocabulary: an optional value, a byte, a document
    identifier, and a deterministic enumeration of a finite set of integer
    keys (used wherever the Go code ranges over a map, whose iteration order
    is unspecified). */
module Common {

  datatype Option<+T> = None | Some(value: T)

  /** One byte of a Go string. */
  newtype byte = x: int | 0 <= x < 256

  /** A MongoDB document identifier; `NilId` is the all-zero identifier that
      the `omitempty` tag leaves out of an insert. */
  type ObjectId = int
  const NilId: ObjectId := 0

  /** A non-empty set has an element. */
  lemma Inhabited<T>(ks: set<T>)
    requires ks != {}
    ensures exists x :: x in ks
  {
    if forall x :: x !in ks {
      assert false;
    }
  }

  /** An element of a non-empty set, for proofs that go on with it. */
  lemma Element<T>(ks: set<T>) returns (x: T)
    requires ks != {}
    ensures x in ks
  {
    Inhabited(ks);
    x :| x in ks;
  }

  /** `m` is the least element of `ks`. */
  predicate IsLeast(m: int, ks: set<int>)
  {
    m in ks && forall k :: k in ks ==> m <= k
  }

  /** Every non-empty finite set of integers has a least element. */
  lemma {:induction false} MinExists(ks: set<int>)
    requires ks != {}
    ensures exists m :: IsLeast(m, ks)
    decreases |ks|
  {
    var x := Element(ks);
    var rest := ks - {x};
    if rest == {} {
      forall k | k in ks
        ensures x <= k
      {
        assert k !in rest;
      }
      assert IsLeast(x, ks);
    } else {
      MinExists(rest);
      var y :| IsLeast(y, rest);
      var m := if x <= y then x else y;
      forall k | k in ks
        ensures m <= k
      {
        if k != x {
          assert k in rest;
        }
      }
      assert IsLeast(m, ks);
    }
  }

  /** The least element of a non-empty set of keys. */
  function Min(ks: set<int>): (m: int)
    requires ks != {}
    ensures m in ks
    ensures forall k :: k in ks ==> m <= k
  {
    MinExists(ks);
    var m :| IsLeast(m, ks);
    m
  }

  /** The keys of `ks` in ascending order, each exactly once. */
  function SortedKeys(ks: set<int>): (r: seq<int>)
    ensures |r| == |ks|
    ensures forall i :: 0 <= i < |r| ==> r[i] in ks
    ensures forall k :: k in ks ==> k in r
    ensures forall i, j :: 0 <= i < j < |r| ==> r[i] < r[j]
    decreases |ks|
  {
    if ks == {} then []
    else
      var m := Min(ks);
      var rest := SortedKeys(ks - {m});
      PrependLeast(m, ks, rest);
      [m] + rest
  }

  /** Putting the least key in front of the ascending keys of the others
      gives the ascending keys of the whole set. */
  lemma PrependLeast(m: int, ks: set<int>, rest: seq<int>)
    requires IsLeast(m, ks)
    requires |rest| == |ks - {m}|
    requires forall i :: 0 <= i < |rest| ==> rest[i] in ks - {m}
    requires forall k :: k in ks - {m} ==> k in rest
    requires forall i, j :: 0 <= i < j < |rest| ==> rest[i] < rest[j]
    ensures |[m] + rest| == |ks|
    ensures forall i :: 0 <= i < |[m] + rest| ==> ([m] + rest)[i] in ks
    ensures forall k :: k in ks ==> k in [m] + rest
    ensures forall i, j :: 0 <= i < j < |[m] + rest| ==> ([m] + rest)[i] < ([m] + rest)[j]
  {
    var r := [m] + rest;
    assert |ks - {m}| == |ks| - 1;
    forall i, j | 0 <= i < j < |r|
      ensures r[i] < r[j]
    {
      assert r[j] == rest[j - 1];
      if i == 0 {
        assert rest[j - 1] in ks - {m};
      } else {
        assert r[i] == rest[i - 1];
      }
    }
    forall i | 0 <= i < |r|
      ensures r[i] in ks
    {
      if i > 0 {
        assert r[i] == rest[i - 1];
      }
    }
    forall k | k in ks
      ensures k in r
    {
      if k != m {
        assert k in ks - {m};
      }
    }
  }
}

=== FILE: controller.dfy ===
/** The eight HTTP handlers of task_manager_with_clean_architecture's
    controller, each as a decision table from the request's parse result and
    the use-case's result to the response written.

    Every handler maps an error with a type switch that has no default
    branch: an error kind the switch does not name writes nothing at all
    (`NoWrite`). The use-case is passed in as a function, so that a handler
    whose parse step fails can be seen not to depend on it. */
module Controller {
  import opened Common
  import opened Domain
  import opened TaskUsecases

  const StatusOK: int := 200
  const StatusCreated: int := 201
  const StatusBadRequest: int := 400
  const StatusNotFound: int := 404
  const StatusInternalServerError: int := 500

  const TaskCreated: string := "Task created successfully"
  const TaskUpdated: string := "Task updated successfully"
  const TaskDeleted: string := "Task deleted successfully"
  const UserRegistered: string := "User registered successfully"
  const LoggedIn: string := "Logged in successfully"
  const UserPromoted: string := "User promoted successfully"

  /** The JSON bodies the handlers write. */
  datatype Body =
    | ErrorBody(error: string)
    | MessageBody(message: string)
    | TaskBody(task: Task)
    | TasksBody(tasks: seq<Task>)
    | TokenBody(message: string, token: string)

  datatype Response = NoWrite | Json(status: int, body: Body)

  /** The outcome of binding a JSON body or parsing a hex identifier. */
  datatype Parsed<+T> = Parsed(value: T) | ParseError(message: string)

  /** The status each error kind is meant to map to, wherever a handler
      maps it at all. */
  function IntendedStatus(e: DomainError): Option<int>
  {
    match e
    case BadRequestError(_) => Some(StatusBadRequest)
    case NotFoundError(_) => Some(StatusNotFound)
    case InternalServerError(_) => Some(StatusInternalServerError)
    case _ => None
  }

  /** A response to error `e` that a handler mapping the kinds with the
      given flags is allowed to write: nothing for an unmapped kind, else the
      intended status with the error's message. */
  ghost predicate ErrorReply(r: Response, e: DomainError, badRequest: bool, notFound: bool)
  {
    var mapped := (badRequest && e.BadRequestError?) || (notFound && e.NotFoundError?) || e.InternalServerError?;
    && (r == NoWrite <==> !mapped)
    && (mapped ==> IntendedStatus(e).Some? && r == Json(IntendedStatus(e).value, ErrorBody(e.Error())))
  }

  function ParseFailed(message: string): Response
  {
    Json(StatusBadRequest, ErrorBody(message))
  }

  function CreateTask(bind: Parsed<Task>, createTask: Task -> Result<()>): (r: Response)
    ensures bind.ParseError? ==> r == ParseFailed(bind.message)
    ensures bind.Parsed? && createTask(bind.value).Ok? ==> r == Json(StatusCreated, MessageBody(TaskCreated))
    ensures bind.Parsed? && createTask(bind.value).Err? ==>
              ErrorReply(r, createTask(bind.value).error, true, false)
  {
    match bind
    case ParseError(msg) => ParseFailed(msg)
    case Parsed(task) =>
      match createTask(task)
      case Ok(_) => Json(StatusCreated, MessageBody(TaskCreated))
      case Err(e) =>
        match e
        case BadRequestError(_) => Json(StatusBadRequest, ErrorBody(e.Error()))
        case InternalServerError(_) => Json(StatusInternalServerError, ErrorBody(e.Error()))
        case _ => NoWrite
  }

  function GetTask(id: Parsed<ObjectId>, getTask: ObjectId -> Result<Task>): (r: Response)
    ensures id.ParseError? ==> r == ParseFailed(id.message)
    ensures id.Parsed? && getTask(id.value).Ok? ==> r == Json(StatusOK, TaskBody(getTask(id.value).value))
    ensures id.Parsed? && getTask(id.value).Err? ==>
              ErrorReply(r, getTask(id.value).error, false, true)
  {
    match id
    case ParseError(msg) => ParseFailed(msg)
    case Parsed(i) =>
      match getTask(i)
      case Ok(task) => Json(StatusOK, TaskBody(task))
      case Err(e) =>
        match e
        case NotFoundError(_) => Json(StatusNotFound, ErrorBody(e.Error()))
        case InternalServerError(_) => Json(StatusInternalServerError, ErrorBody(e.Error()))
        case _ => NoWrite
  }

  function GetTasks(result: Result<seq<Task>>): (r: Response)
    ensures result.Ok? ==> r == Json(StatusOK, TasksBody(result.value))
    ensures result.Err? ==> ErrorReply(r, result.error, false, true)
  {
    match result
    case Ok(tasks) => Json(StatusOK, TasksBody(tasks))
    case Err(e) =>
      match e
      case NotFoundError(_) => Json(StatusNotFound, ErrorBody(e.Error()))
      case InternalServerError(_) => Json(StatusInternalServerError, ErrorBody(e.Error()))
      case _ => NoWrite
  }

  /** The identifier is parsed before the body is bound. */
  function UpdateTask(id: Parsed<ObjectId>, bind: Parsed<Task>, updateTask: (ObjectId, Task) -> Result<()>): (r: Response)
    ensures id.ParseError? ==> r == ParseFailed(id.message)
    ensures id.Parsed? && bind.ParseError? ==> r == ParseFailed(bind.message)
    ensures id.Parsed? && bind.Parsed? && updateTask(id.value, bind.value).Ok? ==>
              r == Json(StatusOK, MessageBody(TaskUpdated))
    ensures id.Parsed? && bind.Parsed? && updateTask(id.value, bind.value).Err? ==>
              ErrorReply(r, updateTask(id.value, bind.value).error, true, true)
  {
    match id
    case ParseError(msg) => ParseFailed(msg)
    case Parsed(i) =>
      match bind
      case ParseError(msg) => ParseFailed(msg)
      case Parsed(task) =>
        match updateTask(i, task)
        case Ok(_) => Json(StatusOK, MessageBody(TaskUpdated))
        case Err(e) =>
          match e
          case BadRequestError(_) => Json(StatusBadRequest, ErrorBody(e.Error()))
          case NotFoundError(_) => Json(StatusNotFound, ErrorBody(e.Error()))
          case InternalServerError(_) => Json(StatusInternalServerError, ErrorBody(e.Error()))
          case _ => NoWrite
  }

  function DeleteTask(id: Parsed<ObjectId>, deleteTask: ObjectId -> Result<()>): (r: Response)
    ensures id.ParseError? ==> r == ParseFailed(id.message)
    ensures id.Parsed? && deleteTask(id.value).Ok? ==> r == Json(StatusOK, MessageBody(TaskDeleted))
    ensures id.Parsed? && deleteTask(id.value).Err? ==>
              ErrorReply(r, deleteTask(id.value).error, false, true)
  {
    match id
    case ParseError(msg) => ParseFailed(msg)
    case Parsed(i) =>
      match deleteTask(i)
      case Ok(_) => Json(StatusOK, MessageBody(TaskDeleted))
      case Err(e) =>
        match e
        case NotFoundError(_) => Json(StatusNotFound, ErrorBody(e.Error()))
        case InternalServerError(_) => Json(StatusInternalServerError, ErrorBody(e.Error()))
        case _ => NoWrite
  }

  /** The credentials a register or login request carries. */
  datatype Credentials = Credentials(username: string, password: string)

  function Register(bind: Parsed<Credentials>, register: (string, string) -> Result<()>): (r: Response)
    ensures bind.ParseError? ==> r == ParseFailed(bind.message)
    ensures bind.Parsed? && register(bind.value.username, bind.value.password).Ok? ==>
              r == Json(StatusCreated, MessageBody(UserRegistered))
    ensures bind.Parsed? && register(bind.value.username, bind.value.password).Err? ==>
              ErrorReply(r, register(bind.value.username, bind.value.password).error, true, false)
  {
    match bind
    case ParseError(msg) => ParseFailed(msg)
    case Parsed(c) =>
      match register(c.username, c.password)
      case Ok(_) => Json(StatusCreated, MessageBody(UserRegistered))
      case Err(e) =>
        match e
        case BadRequestError(_) => Json(StatusBadRequest, ErrorBody(e.Error()))
        case InternalServerError(_) => Json(StatusInternalServerError, ErrorBody(e.Error()))
        case _ => NoWrite
  }

  function Login(bind: Parsed<Credentials>, login: (string, string) -> Result<string>): (r: Response)
    ensures bind.ParseError? ==> r == ParseFailed(bind.message)
    ensures bind.Parsed? && login(bind.value.username, bind.value.password).Ok? ==>
              r == Json(StatusOK, TokenBody(LoggedIn, login(bind.value.username, bind.value.password).value))
    ensures bind.Parsed? && login(bind.value.username, bind.value.password).Err? ==>
              ErrorReply(r, login(bind.value.username, bind.value.password).error, true, false)
  {
    match bind
    case ParseError(msg) => ParseFailed(msg)
    case Parsed(c) =>
      match login(c.username, c.password)
      case Ok(token) => Json(StatusOK, TokenBody(LoggedIn, token))
      case Err(e) =>
        match e
        case BadRequestError(_) => Json(StatusBadRequest, ErrorBody(e.Error()))
        case InternalServerError(_) => Json(StatusInternalServerError, ErrorBody(e.Error()))
        case _ => NoWrite
  }

  function PromoteUser(bind: Parsed<string>, promote: string -> Result<()>): (r: Response)
    ensures bind.ParseError? ==> r == ParseFailed(bind.message)
    ensures bind.Parsed? && promote(bind.value).Ok? ==> r == Json(StatusOK, MessageBody(UserPromoted))
    ensures bind.Parsed? && promote(bind.value).Err? ==> ErrorReply(r, promote(bind.value).error, false, true)
  {
    match bind
    case ParseError(msg) => ParseFailed(msg)
    case Parsed(username) =>
      match promote(username)
      case Ok(_) => Json(StatusOK, MessageBody(UserPromoted))
      case Err(e) =>
        match e
        case NotFoundError(_) => Json(StatusNotFound, ErrorBody(e.Error()))
        case InternalServerError(_) => Json(StatusInternalServerError, ErrorBody(e.Error()))
        case _ => NoWrite
  }

  /** Whatever a handler writes for an error carries the intended status;
      the kinds it does not map (a not-found from create, an unauthorized
      from login, ...) produce no response at all. */
  lemma UnmappedKindsWriteNothing(msg: string, bind: Parsed<Task>, creds: Parsed<Credentials>)
    requires bind.Parsed? && creds.Parsed?
    ensures CreateTask(bind, _ => Err(NotFoundError(msg))) == NoWrite
    ensures Login(creds, (_, _) => Err(UnauthorizedError(msg))) == NoWrite
    ensures Register(creds, (_, _) => Err(UserAlreadyExistsError(msg))) == NoWrite
    ensures GetTasks(Err(BadRequestError(msg))) == NoWrite
  {
  }

  /** A request that fails to parse is answered the same way whatever the
      use-case would have done: it is never consulted. */
  lemma ParseFailureIgnoresUsecase(msg: string, f: Task -> Result<()>, g: Task -> Result<()>)
    ensures CreateTask(ParseError(msg), f) == CreateTask(ParseError(msg), g) == ParseFailed(msg)
  {
  }

  /** The create endpoint end to end: the handler over the use-case over a
      repository, returning the response and the store afterwards. */
  function CreateTaskEndpoint(bind: Parsed<Task>, repo: TaskRepository, store: Store, now: Time): (r: (Response, Store))
    ensures bind.ParseError? ==> r == (ParseFailed(bind.message), store)
    ensures bind.Parsed? && Validate(bind.value, now).Some? ==>
              r == (Json(StatusBadRequest, ErrorBody(Validate(bind.value, now).value)), store)
    ensures r.0.Json? && r.0.status == StatusCreated ==> r.1 == repo.create(store, bind.value).0
  {
    match bind
    case ParseError(msg) => (ParseFailed(msg), store)
    case Parsed(task) =>
      var (store', result) := TaskUsecases.CreateTask(repo, store, task, now);
      (CreateTask(bind, _ => result), store')
  }
}

=== FILE: domain.dfy ===
/** The entities and error kinds of task_manager_with_clean_architecture:
    the task record, its validator, and the six error types, which the Go
    code tells apart by their dynamic type and which here form one sum type. */
module Domain {
  import opened Common

  /** An instant, as a count of time units. The distinguished value `ZeroTime`
      stands for Go's zero `time.Time` (the one `IsZero` reports). */
  type Time = int
  const ZeroTime: Time := 0

  const Pending: string := "pending"
  const Completed: string := "completed"

  const TitleRequired: string := "title is required"
  const DueDateRequired: string := "due date is required"
  const StatusRequired: string := "status is required"
  const StatusInvalid: string := "status must be either pending or completed"
  const DueMustBePast: string := "due date must be in the past"
  const DueMustBeFuture: string := "due date must be in the future"

  datatype Task = Task(id: ObjectId, title: string, dueDate: Time, status: string)

  datatype DomainError =
    | NotFoundError(message: string)
    | UserAlreadyExistsError(message: string)
    | UnauthorizedError(message: string)
    | ForbiddenError(message: string)
    | InternalServerError(message: string)
    | BadRequestError(message: string)
  {
    /** What every kind's `Error()` returns: its message. */
    function Error(): string
    {
      message
    }
  }

  /** The task rules as one declarative statement: what a task must satisfy
      at time `now` to be accepted. A due date equal to `now` is accepted
      for both statuses. */
  ghost predicate Acceptable(t: Task, now: Time)
  {
    && t.title != ""
    && t.dueDate != ZeroTime
    && t.status in {Pending, Completed}
    && (t.status == Completed ==> t.dueDate <= now)
    && (t.status == Pending ==> t.dueDate >= now)
  }

  /** Task.Validate with the clock reading passed in: nil (`None`) or the
      message of the first rule that fails. */
  function Validate(t: Task, now: Time): (r: Option<string>)
    ensures r == None <==> Acceptable(t, now)
    ensures t.title == "" ==> r == Some(TitleRequired)
    ensures t.title != "" && t.dueDate == ZeroTime ==> r == Some(DueDateRequired)
    ensures t.title != "" && t.dueDate != ZeroTime && t.status == "" ==> r == Some(StatusRequired)
    ensures t.title != "" && t.dueDate != ZeroTime && t.status != "" && t.status !in {Pending, Completed}
            ==> r == Some(StatusInvalid)
    ensures t.title != "" && t.dueDate != ZeroTime && t.status == Completed && now < t.dueDate
            ==> r == Some(DueMustBePast)
    ensures t.title != "" && t.dueDate != ZeroTime && t.status == Pending && now > t.dueDate
            ==> r == Some(DueMustBeFuture)
  {
    if t.title == "" then Some(TitleRequired)
    else if t.dueDate == ZeroTime then Some(DueDateRequired)
    else if t.status == "" then Some(StatusRequired)
    else if t.status != Pending && t.status != Completed then Some(StatusInvalid)
    else if t.status == Completed && now < t.dueDate then Some(DueMustBePast)
    else if t.status == Pending && now > t.dueDate then Some(DueMustBeFuture)
    else None
  }

  /** A task due exactly now passes whichever status it has. */
  lemma DueNowPasses(t: Task, now: Time)
    requires t.title != "" && now != ZeroTime && t.status in {Pending, Completed}
    ensures Validate(t.(dueDate := now), now) == None
  {
  }

  /** Validation depends on the clock: a pending task that is valid now
      stops being valid once its due date has passed. */
  lemma PendingExpires(t: Task, now: Time, later: Time)
    requires Validate(t, now) == None && t.status == Pending
    requires later > t.dueDate
    ensures Validate(t, later) == Some(DueMustBeFuture)
  {
  }
}

=== FILE: grades.dfy ===
/** The two pure helpers of student_grade_calculator: the range check on an
    entered grade and the mapping of a score to a letter grade.

    Scores are reals. A float64 compared with these integer thresholds is
    compared exactly, so only NaN and the infinities fall outside the model. */
module GradeCalculator {

  /** isValidGrade: the closed range from the floor of F to 100, both ends
      included. */
  function IsValidGrade(g: real): (r: bool)
    ensures r <==> Floor(F) <= g <= 100.0
  {
    0.0 <= g <= 100.0
  }

  /** The ten letter grades, lowest first. */
  datatype Letter = F | D | CMinus | C | CPlus | BMinus | B | BPlus | AMinus | A

  /** The position of a letter in the order F < D < ... < A. */
  function Rank(l: Letter): (n: nat)
    ensures n < 10
  {
    match l
    case F => 0
    case D => 1
    case CMinus => 2
    case C => 3
    case CPlus => 4
    case BMinus => 5
    case B => 6
    case BPlus => 7
    case AMinus => 8
    case A => 9
  }

  function Text(l: Letter): string
  {
    match l
    case F => "F"
    case D => "D"
    case CMinus => "C-"
    case C => "C"
    case CPlus => "C+"
    case BMinus => "B-"
    case B => "B"
    case BPlus => "B+"
    case AMinus => "A-"
    case A => "A"
  }

  /** The lowest score that earns the letter; F has none. */
  function Floor(l: Letter): real
  {
    match l
    case F => 0.0
    case D => 40.0
    case CMinus => 45.0
    case C => 50.0
    case CPlus => 60.0
    case BMinus => 65.0
    case B => 68.0
    case BPlus => 75.0
    case AMinus => 80.0
    case A => 85.0
  }

  /** The letter one rank higher, if any. */
  function Next(l: Letter): Successor
  {
    match l
    case F => Up(D)
    case D => Up(CMinus)
    case CMinus => Up(C)
    case C => Up(CPlus)
    case CPlus => Up(BMinus)
    case BMinus => Up(B)
    case B => Up(BPlus)
    case BPlus => Up(AMinus)
    case AMinus => Up(A)
    case A => Top
  }

  datatype Successor = Top | Up(next: Letter)

  /** `score` lies in the half-open band of `l`: at least its floor (F has
      no lower limit) and below the floor of the next letter (A has no
      upper limit). */
  predicate InBand(score: real, l: Letter)
  {
    && (l == F || Floor(l) <= score)
    && (Next(l).Up? ==> score < Floor(Next(l).next))
  }

  /** The threshold cascade: the first threshold, from the top, that the
      score reaches decides the letter. */
  function GradeOf(score: real): (l: Letter)
    ensures InBand(score, l)
  {
    if score >= 85.0 then A
    else if score >= 80.0 then AMinus
    else if score >= 75.0 then BPlus
    else if score >= 68.0 then B
    else if score >= 65.0 then BMinus
    else if score >= 60.0 then CPlus
    else if score >= 50.0 then C
    else if score >= 45.0 then CMinus
    else if score >= 40.0 then D
    else F
  }

  function GradeText(score: real): (t: string)
    ensures t in {"A", "A-", "B+", "B", "B-", "C+", "C", "C-", "D", "F"}
  {
    Text(GradeOf(score))
  }

  /** The bands do not overlap: a score lies in exactly one band, and that
      band's letter is the one computed. */
  lemma BandIsUnique(score: real, l: Letter)
    ensures InBand(score, l) <==> l == GradeOf(score)
  {
  }

  /** A higher score never earns a lower letter. */
  lemma Monotone(s1: real, s2: real)
    requires s1 <= s2
    ensures Rank(GradeOf(s1)) <= Rank(GradeOf(s2))
  {
  }

  /** Different letters print differently, so the printed grade determines
      the letter. */
  lemma TextIsInjective(l1: Letter, l2: Letter)
    ensures Text(l1) == Text(l2) <==> l1 == l2
  {
  }

  lemma Extremes(score: real)
    ensures score >= 85.0 ==> GradeText(score) == "A"
    ensures score < 40.0 ==> GradeText(score) == "F"
    ensures IsValidGrade(score) ==> (score == 100.0 ==> GradeOf(score) == A) && (score == 0.0 ==> GradeOf(score) == F)
  {
  }

  /** The range check excludes no letter: every letter's lowest score is an
      accepted grade that earns that letter, and the range starts at the
      floor of F. */
  lemma EveryLetterAccepted(l: Letter)
    ensures IsValidGrade(Floor(l)) && GradeOf(Floor(l)) == l
    ensures exists g :: IsValidGrade(g) && GradeOf(g) == l
  {
    assert IsValidGrade(Floor(l)) && GradeOf(Floor(l)) == l;
  }
}

=== FILE: library.dfy ===
/** The in-memory library of library_management_system/services: two maps,
    books by ID and members by ID, and the eight operations on them. Every
    operation is a pure function from the old library to the new one.

    A member's `borrowed` map is held inside the member. In Go that map is a
    reference shared between the stored member and the local copy that
    BorrowBook and ReturnBook take, so writing through the copy updates the
    stored member; here the operations write the updated member back. */
module LibraryService {
  import opened Common

  const Available: string := "Available"
  const Borrowed: string := "Borrowed"

  const BookNotFound: string := "book not found"
  const MemberNotFound: string := "member not found"
  const AlreadyBorrowed: string := "book already borrowed"
  const NotBorrowed: string := "book was not borrowed"

  datatype Book = Book(id: int, title: string, author: string, status: string)

  datatype Member = Member(id: int, name: string, borrowed: map<int, Book>)

  datatype Library = Library(books: map<int, Book>, members: map<int, Member>)

  /** The error a mutating operation returns: nil, or a message. */
  datatype Outcome = Ok | Err(message: string)

  /** The library after an operation, and what the operation returned. */
  datatype Step = Step(lib: Library, outcome: Outcome)

  /** An empty library: no books and no members, so it keeps the keying
      invariant, has no available books, and every borrow fails on the book
      lookup. */
  function NewLibrary(): (r: Library)
    ensures r.books.Keys == {} && r.members.Keys == {}
    ensures WellKeyed(r)
    ensures AvailableIds(r) == {}
    ensures forall bookId, memberId :: BorrowBook(r, bookId, memberId) == Step(r, Err(BookNotFound))
  {
    Library(map[], map[])
  }

  /** Every entry is stored under its own ID, as AddBook and AddMember do. */
  ghost predicate WellKeyed(lib: Library)
  {
    && (forall k :: k in lib.books ==> lib.books[k].id == k)
    && (forall k :: k in lib.members ==> lib.members[k].id == k)
  }

  /** The IDs of the books whose status is exactly "Available". */
  function AvailableIds(lib: Library): set<int>
  {
    set k | k in lib.books && lib.books[k].status == Available
  }

  function AddMember(lib: Library, member: Member): (r: Library)
    ensures r.members.Keys == lib.members.Keys + {member.id}
    ensures r.members[member.id] == member
    ensures forall k :: k in lib.members && k != member.id ==> r.members[k] == lib.members[k]
    ensures r.books == lib.books
    ensures WellKeyed(lib) ==> WellKeyed(r)
  {
    lib.(members := lib.members[member.id := member])
  }

  function RemoveMember(lib: Library, memberId: int): (r: Library)
    ensures r.members.Keys == lib.members.Keys - {memberId}
    ensures forall k :: k in r.members ==> r.members[k] == lib.members[k]
    ensures r.books == lib.books
    ensures memberId !in lib.members ==> r == lib
    ensures WellKeyed(lib) ==> WellKeyed(r)
  {
    if memberId !in lib.members then lib
    else lib.(members := lib.members - {memberId})
  }

  /** Stores the book under its ID, replacing any earlier entry. Members,
      including the copies of books they hold, are not touched. */
  function AddBook(lib: Library, book: Book): (r: Library)
    ensures r.books.Keys == lib.books.Keys + {book.id}
    ensures r.books[book.id] == book
    ensures forall k :: k in lib.books && k != book.id ==> r.books[k] == lib.books[k]
    ensures r.members == lib.members
    ensures WellKeyed(lib) ==> WellKeyed(r)
  {
    lib.(books := lib.books[book.id := book])
  }

  /** Deletes the entry for `bookId` (a no-op when there is none); members'
      borrowed maps keep their copies. */
  function RemoveBook(lib: Library, bookId: int): (r: Library)
    ensures r.books.Keys == lib.books.Keys - {bookId}
    ensures forall k :: k in r.books ==> r.books[k] == lib.books[k]
    ensures r.members == lib.members
    ensures bookId !in lib.books ==> r == lib
    ensures WellKeyed(lib) ==> WellKeyed(r)
  {
    lib.(books := lib.books - {bookId})
  }

  function BorrowBook(lib: Library, bookId: int, memberId: int): (r: Step)
    // the errors, in the order they are checked; on any error nothing changes
    ensures bookId !in lib.books ==> r == Step(lib, Err(BookNotFound))
    ensures bookId in lib.books && memberId !in lib.members ==> r == Step(lib, Err(MemberNotFound))
    ensures bookId in lib.books && memberId in lib.members && lib.books[bookId].status == Borrowed
            ==> r == Step(lib, Err(AlreadyBorrowed))
    ensures r.outcome.Err? ==> r.lib == lib
    ensures r.outcome == Ok <==>
            bookId in lib.books && memberId in lib.members && lib.books[bookId].status != Borrowed
    // on success: the book is marked borrowed and the member holds that copy
    ensures r.outcome == Ok ==>
              var book := lib.books[bookId].(status := Borrowed);
              var m := lib.members[memberId];
              && r.lib.books == lib.books[bookId := book]
              && r.lib.members == lib.members[memberId := m.(borrowed := m.borrowed[bookId := book])]
    ensures WellKeyed(lib) ==> WellKeyed(r.lib)
  {
    if bookId !in lib.books then Step(lib, Err(BookNotFound))
    else if memberId !in lib.members then Step(lib, Err(MemberNotFound))
    else
      var book := lib.books[bookId];
      var member := lib.members[memberId];
      if book.status == Borrowed then Step(lib, Err(AlreadyBorrowed))
      else
        var book' := book.(status := Borrowed);
        var member' := member.(borrowed := member.borrowed[bookId := book']);
        Step(Library(lib.books[bookId := book'], lib.members[memberId := member']), Ok)
  }

  /** ReturnBook does not check that the named member is the one who
      borrowed the book; removing a book the member does not hold is a no-op. */
  function ReturnBook(lib: Library, bookId: int, memberId: int): (r: Step)
    ensures bookId !in lib.books ==> r == Step(lib, Err(BookNotFound))
    ensures bookId in lib.books && memberId !in lib.members ==> r == Step(lib, Err(MemberNotFound))
    ensures bookId in lib.books && memberId in lib.members && lib.books[bookId].status == Available
            ==> r == Step(lib, Err(NotBorrowed))
    ensures r.outcome.Err? ==> r.lib == lib
    ensures r.outcome == Ok <==>
            bookId in lib.books && memberId in lib.members && lib.books[bookId].status != Available
    ensures r.outcome == Ok ==>
              var m := lib.members[memberId];
              && r.lib.books == lib.books[bookId := lib.books[bookId].(status := Available)]
              && r.lib.members == lib.members[memberId := m.(borrowed := m.borrowed - {bookId})]
    ensures WellKeyed(lib) ==> WellKeyed(r.lib)
  {
    if bookId !in lib.books then Step(lib, Err(BookNotFound))
    else if memberId !in lib.members then Step(lib, Err(MemberNotFound))
    else
      var book := lib.books[bookId];
      var member := lib.members[memberId];
      if book.status == Available then Step(lib, Err(NotBorrowed))
      else
        var book' := book.(status := Available);
        var member' := member.(borrowed := member.borrowed - {bookId});
        Step(Library(lib.books[bookId := book'], lib.members[memberId := member']), Ok)
  }

  /** `b` is the entry of `m` at one of the keys `ks`. */
  ghost predicate StoredAt(m: map<int, Book>, ks: set<int>, b: Book)
  {
    exists k :: k in ks && k in m && m[k] == b
  }

  /** The keys among `ks` at which `m` holds `b`. */
  ghost function KeysHolding(m: map<int, Book>, ks: set<int>, b: Book): set<int>
  {
    set k | k in ks && k in m && m[k] == b
  }

  /** The values of `m` at the keys `ks`, in ascending key order: one entry
      per key, so a book stored under several keys is listed that many
      times. */
  function ValuesAt(m: map<int, Book>, ks: set<int>): (r: seq<Book>)
    requires ks <= m.Keys
    ensures |r| == |ks|
    ensures forall i :: 0 <= i < |r| ==> StoredAt(m, ks, r[i])
    ensures forall k :: k in ks ==> m[k] in r
    ensures forall b :: multiset(r)[b] == |KeysHolding(m, ks, b)|
    ensures (forall k :: k in m ==> m[k].id == k) ==>
              forall i, j :: 0 <= i < j < |r| ==> r[i] != r[j]
  {
    var keys := SortedKeys(ks);
    var r := Pick(m, keys);
    ValuesAtFacts(m, ks, keys, r);
    forall b
      ensures multiset(r)[b] == |KeysHolding(m, ks, b)|
    {
      PickCounts(m, keys, b);
      SameKeys(m, ks, keys, b);
    }
    r
  }

  /** The entries of `m` at `keys`, in that order. */
  function Pick(m: map<int, Book>, keys: seq<int>): (r: seq<Book>)
    requires forall i :: 0 <= i < |keys| ==> keys[i] in m
    ensures |r| == |keys|
    ensures forall i :: 0 <= i < |r| ==> r[i] == m[keys[i]]
  {
    if |keys| == 0 then [] else [m[keys[0]]] + Pick(m, keys[1..])
  }

  /** The keys listed in `keys` at which `m` holds `b`. */
  ghost function ListedHolding(m: map<int, Book>, keys: seq<int>, b: Book): set<int>
  {
    set k | k in keys && k in m && m[k] == b
  }

  /** Over distinct keys, each book occurs in the picked entries once per
      key that holds it. */
  lemma {:induction false} PickCounts(m: map<int, Book>, keys: seq<int>, b: Book)
    requires forall i :: 0 <= i < |keys| ==> keys[i] in m
    requires forall i, j :: 0 <= i < j < |keys| ==> keys[i] < keys[j]
    ensures multiset(Pick(m, keys))[b] == |ListedHolding(m, keys, b)|
  {
    if |keys| == 0 {
      assert ListedHolding(m, keys, b) == {};
    } else {
      var k0, rest := keys[0], keys[1..];
      PickCounts(m, rest, b);
      assert Pick(m, keys) == [m[k0]] + Pick(m, rest);
      assert multiset(Pick(m, keys)) == multiset{m[k0]} + multiset(Pick(m, rest));
      HeadSplits(m, keys, b);
    }
  }

  /** The keys holding `b` are those of the tail plus, when it holds `b`,
      the head, which the tail does not repeat. */
  lemma HeadSplits(m: map<int, Book>, keys: seq<int>, b: Book)
    requires |keys| > 0
    requires forall i, j :: 0 <= i < j < |keys| ==> keys[i] < keys[j]
    ensures keys[0] !in ListedHolding(m, keys[1..], b)
    ensures ListedHolding(m, keys, b) ==
              ListedHolding(m, keys[1..], b) + (if keys[0] in m && m[keys[0]] == b then {keys[0]} else {})
  {
    var rest := keys[1..];
    forall j | 0 <= j < |rest|
      ensures rest[j] != keys[0]
    {
      assert rest[j] == keys[j + 1];
    }
    assert keys == [keys[0]] + rest;
  }

  /** Listing the keys of `ks` in a sequence does not change which of them
      hold `b`. */
  lemma SameKeys(m: map<int, Book>, ks: set<int>, keys: seq<int>, b: Book)
    requires forall i :: 0 <= i < |keys| ==> keys[i] in ks
    requires forall k :: k in ks ==> k in keys
    ensures KeysHolding(m, ks, b) == ListedHolding(m, keys, b)
  {
    forall k
      ensures k in KeysHolding(m, ks, b) <==> k in ListedHolding(m, keys, b)
    {
      if k in keys {
        var i :| 0 <= i < |keys| && keys[i] == k;
      }
    }
  }

  lemma ValuesAtFacts(m: map<int, Book>, ks: set<int>, keys: seq<int>, r: seq<Book>)
    requires ks <= m.Keys
    requires forall i :: 0 <= i < |keys| ==> keys[i] in ks
    requires forall k :: k in ks ==> k in keys
    requires forall i, j :: 0 <= i < j < |keys| ==> keys[i] < keys[j]
    requires |r| == |keys| && forall i :: 0 <= i < |r| ==> r[i] == m[keys[i]]
    ensures forall i :: 0 <= i < |r| ==> StoredAt(m, ks, r[i])
    ensures forall k :: k in ks ==> m[k] in r
    ensures (forall k :: k in m ==> m[k].id == k) ==>
              forall i, j :: 0 <= i < j < |r| ==> r[i] != r[j]
  {
    forall k | k in ks
      ensures m[k] in r
    {
      var i :| 0 <= i < |keys| && keys[i] == k;
      assert r[i] == m[k];
    }
    if forall k :: k in m ==> m[k].id == k {
      forall i, j | 0 <= i < j < |r|
        ensures r[i] != r[j]
      {
        assert r[i].id == keys[i] < keys[j] == r[j].id;
      }
    }
    forall i | 0 <= i < |r|
      ensures StoredAt(m, ks, r[i])
    {
      assert keys[i] in ks && r[i] == m[keys[i]];
    }
  }

  /** Exactly the books whose status is "Available", each listed once, in
      an order the caller may not rely on. */
  function ListAvailableBooks(lib: Library): (r: seq<Book>)
    ensures |r| == |AvailableIds(lib)|
    ensures forall i :: 0 <= i < |r| ==> r[i].status == Available && r[i] in lib.books.Values
    ensures forall k :: k in lib.books && lib.books[k].status == Available ==> lib.books[k] in r
    ensures forall b :: multiset(r)[b] == |KeysHolding(lib.books, AvailableIds(lib), b)|
    ensures WellKeyed(lib) ==> forall i, j :: 0 <= i < j < |r| ==> r[i] != r[j]
  {
    ValuesAt(lib.books, AvailableIds(lib))
  }

  /** Nothing (Go's nil slice) for an unknown member; otherwise the books in
      that member's borrowed map, each listed once per key that holds it. */
  function ListBorrowedBooks(lib: Library, memberId: int): (r: seq<Book>)
    ensures memberId !in lib.members ==> r == []
    ensures memberId in lib.members ==>
              var held := lib.members[memberId].borrowed;
              && |r| == |held|
              && (forall i :: 0 <= i < |r| ==> r[i] in held.Values)
              && (forall k :: k in held ==> held[k] in r)
              && (forall b :: multiset(r)[b] == |KeysHolding(held, held.Keys, b)|)
  {
    if memberId !in lib.members then []
    else
      var held := lib.members[memberId].borrowed;
      ValuesAt(held, held.Keys)
  }

  /** Borrowing an available book the member does not hold and then
      returning it restores the library exactly. */
  lemma BorrowThenReturn(lib: Library, bookId: int, memberId: int)
    requires bookId in lib.books && memberId in lib.members
    requires lib.books[bookId].status == Available
    requires bookId !in lib.members[memberId].borrowed
    ensures BorrowBook(lib, bookId, memberId).outcome == Ok
    ensures ReturnBook(BorrowBook(lib, bookId, memberId).lib, bookId, memberId) == Step(lib, Ok)
  {
    var mid := BorrowBook(lib, bookId, memberId).lib;
    var m := lib.members[memberId];
    assert mid.members[memberId].borrowed - {bookId} == m.borrowed;
    assert mid.books[bookId].(status := Available) == lib.books[bookId];
  }

  /** A second borrow of the same book fails, whoever asks, and changes
      nothing. */
  lemma BorrowTwiceFails(lib: Library, bookId: int, memberId: int, other: int)
    requires BorrowBook(lib, bookId, memberId).outcome == Ok
    requires other in lib.members
    ensures var mid := BorrowBook(lib, bookId, memberId).lib;
            BorrowBook(mid, bookId, other) == Step(mid, Err(AlreadyBorrowed))
  {
  }

  /** A book that was borrowed shows up in the borrower's list and no longer
      in the list of available books. */
  lemma BorrowMovesBetweenLists(lib: Library, bookId: int, memberId: int)
    requires BorrowBook(lib, bookId, memberId).outcome == Ok
    ensures var mid := BorrowBook(lib, bookId, memberId).lib;
            && mid.books[bookId] in ListBorrowedBooks(mid, memberId)
            && mid.books[bookId] !in ListAvailableBooks(mid)
  {
    var mid := BorrowBook(lib, bookId, memberId).lib;
    var book := mid.books[bookId];
    assert book.status == Borrowed;
    var held := mid.members[memberId].borrowed;
    assert held[bookId] == book;
  }

  /** AddMember stores whatever borrowed map it is given; when that map holds
      one copy under two keys, the borrower's list shows it twice. */
  lemma SharedCopyListedTwice(a: Book, b: Book)
    requires a != b
    ensures var lib := AddMember(NewLibrary(), Member(7, "m", map[1 := a, 2 := a, 3 := b]));
            && |ListBorrowedBooks(lib, 7)| == 3
            && multiset(ListBorrowedBooks(lib, 7))[a] == 2
            && multiset(ListBorrowedBooks(lib, 7))[b] == 1
  {
    var held := map[1 := a, 2 := a, 3 := b];
    var lib := AddMember(NewLibrary(), Member(7, "m", held));
    assert lib.members[7].borrowed == held;
    SharedCopyKeys(a, b, held);
  }

  /** The keys of that borrowed map: three in all, two holding `a`, one
      holding `b`. */
  lemma SharedCopyKeys(a: Book, b: Book, held: map<int, Book>)
    requires a != b
    requires held == map[1 := a, 2 := a, 3 := b]
    ensures |held| == 3
    ensures |KeysHolding(held, held.Keys, a)| == 2
    ensures |KeysHolding(held, held.Keys, b)| == 1
  {
    assert held.Keys == {1, 2, 3};
    assert KeysHolding(held, held.Keys, a) == {1, 2};
    assert KeysHolding(held, held.Keys, b) == {3};
  }
}

=== FILE: palindrome.dfy ===
/** IsPalindrome of fundamentals_of_go: a two-pointer scan over the bytes of
    a string that skips bytes that are not letters and compares the rest
    exactly (no case folding).

    The Go code asks unicode.IsLetter of `rune(s[i])`, a code point below 256,
    so the letter test is a fixed Latin-1 table, `IsLatin1Letter`. The method
    itself takes the test as a parameter and is proved for any test. */
module Palindrome {
  import opened Common

  /** unicode.IsLetter on the code points 0..255: ASCII letters, the
      ordinal indicators and the micro sign, and the Latin-1 letters other
      than the multiplication and division signs. */
  predicate IsLatin1Letter(b: byte)
  {
    || 'A' as byte <= b <= 'Z' as byte
    || 'a' as byte <= b <= 'z' as byte
    || b == 0xAA || b == 0xB5 || b == 0xBA
    || (0xC0 <= b <= 0xFF && b != 0xD7 && b != 0xF7)
  }

  /** The subsequence of the bytes that are letters. */
  function Letters(s: seq<byte>, isLetter: byte -> bool): seq<byte>
  {
    if |s| == 0 then []
    else if isLetter(s[0]) then [s[0]] + Letters(s[1..], isLetter)
    else Letters(s[1..], isLetter)
  }

  function Reverse(s: seq<byte>): seq<byte>
  {
    if |s| == 0 then [] else Reverse(s[1..]) + [s[0]]
  }

  /** Each byte equals its mirror image. */
  predicate IsPal(s: seq<byte>)
  {
    forall i :: 0 <= i < |s| ==> s[i] == s[|s| - 1 - i]
  }

  lemma {:induction false} ReverseIndex(s: seq<byte>)
    ensures |Reverse(s)| == |s|
    ensures forall i :: 0 <= i < |s| ==> Reverse(s)[i] == s[|s| - 1 - i]
    decreases |s|
  {
    if |s| > 0 {
      ReverseIndex(s[1..]);
      assert Reverse(s) == Reverse(s[1..]) + [s[0]];
    }
  }

  /** A palindrome is exactly a sequence equal to its reverse. */
  lemma PalIsOwnReverse(s: seq<byte>)
    ensures IsPal(s) <==> s == Reverse(s)
  {
    ReverseIndex(s);
  }

  /** A sequence framed by x and y is a palindrome iff x == y and the
      middle is one. */
  lemma FramedPal(x: byte, m: seq<byte>, y: byte)
    ensures IsPal([x] + m + [y]) <==> x == y && IsPal(m)
  {
    var t := [x] + m + [y];
    var n := |m|;
    assert |t| == n + 2 && t[0] == x && t[n + 1] == y;
    assert forall j :: 0 <= j < n ==> t[j + 1] == m[j];
    if IsPal(t) {
      assert t[0] == t[n + 1];
      forall j | 0 <= j < n
        ensures m[j] == m[n - 1 - j]
      {
        assert t[j + 1] == t[n - j];
      }
    }
    if x == y && IsPal(m) {
      forall i | 0 <= i < n + 2
        ensures t[i] == t[n + 1 - i]
      {
        if 0 < i < n + 1 {
          assert m[i - 1] == m[n - i];
        }
      }
    }
  }

  /** At most one letter is a palindrome. */
  lemma SmallIsPal(s: seq<byte>)
    requires |s| <= 1
    ensures IsPal(s)
  {
  }

  lemma LettersOfOne(s: seq<byte>, isLetter: byte -> bool)
    requires |s| == 1
    ensures |Letters(s, isLetter)| <= 1
  {
    assert s[1..] == [];
  }

  /** The letters of s[lo..hi + 1] (none when lo > hi), defined on indices
      so that the scan's two moves are one unfolding each. */
  function Window(s: seq<byte>, lo: int, hi: int, isLetter: byte -> bool): seq<byte>
    requires 0 <= lo && hi < |s|
    decreases hi - lo
  {
    if lo > hi then []
    else if isLetter(s[lo]) then [s[lo]] + Window(s, lo + 1, hi, isLetter)
    else Window(s, lo + 1, hi, isLetter)
  }

  /** The whole string is the widest window. */
  lemma {:induction false} WholeWindow(s: seq<byte>, lo: int, isLetter: byte -> bool)
    requires 0 <= lo <= |s|
    ensures Window(s, lo, |s| - 1, isLetter) == Letters(s[lo..], isLetter)
    decreases |s| - lo
  {
    if lo < |s| {
      WholeWindow(s, lo + 1, isLetter);
      assert s[lo..][1..] == s[lo + 1..];
    }
  }

  lemma StartWindow(s: seq<byte>, isLetter: byte -> bool)
    ensures Window(s, 0, |s| - 1, isLetter) == Letters(s, isLetter)
  {
    WholeWindow(s, 0, isLetter);
    assert s[0..] == s;
  }

  /** The letters of a window, split off at its right end. */
  lemma {:induction false} WindowRight(s: seq<byte>, lo: int, hi: int, isLetter: byte -> bool)
    requires 0 <= lo <= hi < |s|
    ensures Window(s, lo, hi, isLetter) ==
            Window(s, lo, hi - 1, isLetter) + (if isLetter(s[hi]) then [s[hi]] else [])
    decreases hi - lo
  {
    var head := if isLetter(s[lo]) then [s[lo]] else [];
    var last := if isLetter(s[hi]) then [s[hi]] else [];
    if lo < hi {
      WindowRight(s, lo + 1, hi, isLetter);
      assert Window(s, lo, hi, isLetter) == head + (Window(s, lo + 1, hi - 1, isLetter) + last);
      assert Window(s, lo, hi - 1, isLetter) == head + Window(s, lo + 1, hi - 1, isLetter);
    } else {
      assert Window(s, lo + 1, hi, isLetter) == [];
      assert Window(s, lo, hi - 1, isLetter) == [];
    }
  }

  /** Dropping a non-letter from the left end of the window does not change
      its letters. */
  lemma DropLeft(s: seq<byte>, lo: int, hi: int, isLetter: byte -> bool)
    requires 0 <= lo <= hi < |s| && !isLetter(s[lo])
    ensures Window(s, lo + 1, hi, isLetter) == Window(s, lo, hi, isLetter)
  {
  }

  lemma DropRight(s: seq<byte>, lo: int, hi: int, isLetter: byte -> bool)
    requires 0 <= lo <= hi < |s| && !isLetter(s[hi])
    ensures Window(s, lo, hi - 1, isLetter) == Window(s, lo, hi, isLetter)
  {
    WindowRight(s, lo, hi, isLetter);
  }

  /** With letters at both ends, the window's letters are the two end
      letters around the letters of the inner window. */
  lemma Frame(s: seq<byte>, lo: int, hi: int, isLetter: byte -> bool)
    requires 0 <= lo < hi < |s| && isLetter(s[lo]) && isLetter(s[hi])
    ensures Window(s, lo, hi, isLetter) == [s[lo]] + Window(s, lo + 1, hi - 1, isLetter) + [s[hi]]
  {
    WindowRight(s, lo + 1, hi, isLetter);
  }

  /** One inward step of the scan: equal end bytes (letters, unless the
      window has shrunk to one byte) leave the answer to the inner window. */
  lemma StepInward(s: seq<byte>, lo: int, hi: int, isLetter: byte -> bool)
    requires 0 <= lo <= hi < |s| && s[lo] == s[hi]
    requires lo < hi ==> isLetter(s[lo]) && isLetter(s[hi])
    ensures IsPal(Window(s, lo, hi, isLetter)) <==> IsPal(Window(s, lo + 1, hi - 1, isLetter))
  {
    if lo < hi {
      Frame(s, lo, hi, isLetter);
      FramedPal(s[lo], Window(s, lo + 1, hi - 1, isLetter), s[hi]);
    } else {
      SmallWindowIsPal(s, lo, hi, isLetter);
      SmallWindowIsPal(s, lo + 1, hi - 1, isLetter);
    }
  }

  /** Different letters at the two ends: not a palindrome. */
  lemma EndsDiffer(s: seq<byte>, lo: int, hi: int, isLetter: byte -> bool)
    requires 0 <= lo < hi < |s| && s[lo] != s[hi]
    requires isLetter(s[lo]) && isLetter(s[hi])
    ensures !IsPal(Window(s, lo, hi, isLetter))
  {
    Frame(s, lo, hi, isLetter);
    FramedPal(s[lo], Window(s, lo + 1, hi - 1, isLetter), s[hi]);
  }

  lemma SmallWindowIsPal(s: seq<byte>, lo: int, hi: int, isLetter: byte -> bool)
    requires 0 <= lo && hi < |s| && hi <= lo
    ensures IsPal(Window(s, lo, hi, isLetter))
  {
    if lo == hi {
      assert Window(s, lo + 1, hi, isLetter) == [];
    }
    SmallIsPal(Window(s, lo, hi, isLetter));
  }

  /** Dropping a run of non-letters from the left end of the window does
      not change its letters. */
  lemma {:induction false} DropLeftRun(s: seq<byte>, lo: int, mid: int, hi: int, isLetter: byte -> bool)
    requires 0 <= lo <= mid <= hi < |s|
    requires forall i :: lo <= i < mid ==> !isLetter(s[i])
    ensures Window(s, mid, hi, isLetter) == Window(s, lo, hi, isLetter)
    decreases mid - lo
  {
    if lo < mid {
      DropLeftRun(s, lo + 1, mid, hi, isLetter);
      DropLeft(s, lo, hi, isLetter);
    }
  }

  lemma {:induction false} DropRightRun(s: seq<byte>, lo: int, mid: int, hi: int, isLetter: byte -> bool)
    requires 0 <= lo <= mid <= hi < |s|
    requires forall i :: mid < i <= hi ==> !isLetter(s[i])
    ensures Window(s, lo, mid, isLetter) == Window(s, lo, hi, isLetter)
    decreases hi - mid
  {
    if mid < hi {
      DropRightRun(s, lo, mid, hi - 1, isLetter);
      DropRight(s, lo, hi, isLetter);
    }
  }

  /** The first inner loop of the scan: move `left` past non-letters,
      never beyond `right`; the letters of the window stay the same. */
  method SkipLeft(s: seq<byte>, left: int, right: int, isLetter: byte -> bool) returns (l: int)
    requires 0 <= left <= right < |s|
    ensures left <= l <= right
    ensures l < right ==> isLetter(s[l])
    ensures Window(s, l, right, isLetter) == Window(s, left, right, isLetter)
  {
    l := left;
    while l < right && !isLetter(s[l])
      invariant left <= l <= right
      invariant forall i :: left <= i < l ==> !isLetter(s[i])
    {
      l := l + 1;
    }
    DropLeftRun(s, left, l, right, isLetter);
  }

  /** The second inner loop: move `right` back past non-letters, never
      below `left`. */
  method SkipRight(s: seq<byte>, left: int, right: int, isLetter: byte -> bool) returns (r: int)
    requires 0 <= left <= right < |s|
    ensures left <= r <= right
    ensures left < r ==> isLetter(s[r])
    ensures Window(s, left, r, isLetter) == Window(s, left, right, isLetter)
  {
    r := right;
    while left < r && !isLetter(s[r])
      invariant left <= r <= right
      invariant forall i :: r < i <= right ==> !isLetter(s[i])
    {
      r := r - 1;
    }
    DropRightRun(s, left, r, right, isLetter);
  }

  /** One pass of the outer loop over the window [left, right]: skip
      non-letters from both ends, then compare the end bytes. Either they
      differ and the window is no palindrome, or the answer is that of the
      window one byte inside each end. */
  method ScanStep(s: seq<byte>, left: int, right: int, isLetter: byte -> bool) returns (same: bool, l: int, r: int)
    requires 0 <= left < right < |s|
    ensures same ==> 0 <= l && r < |s| && l <= r + 2 && r - l < right - left
    ensures same ==> (IsPal(Window(s, l, r, isLetter)) <==> IsPal(Window(s, left, right, isLetter)))
    ensures !same ==> !IsPal(Window(s, left, right, isLetter))
  {
    l := SkipLeft(s, left, right, isLetter);
    r := SkipRight(s, l, right, isLetter);
    if s[l] != s[r] {
      EndsDiffer(s, l, r, isLetter);
      return false, l, r;
    }
    StepInward(s, l, r, isLetter);
    same, l, r := true, l + 1, r - 1;
  }

  /** IsPalindrome: true iff the letters of `s` read the same backwards. */
  method IsPalindrome(s: seq<byte>, isLetter: byte -> bool) returns (b: bool)
    ensures b <==> IsPal(Letters(s, isLetter))
  {
    var left, right := 0, |s| - 1;
    StartWindow(s, isLetter);
    while left < right
      invariant 0 <= left && right < |s| && left <= right + 2
      invariant IsPal(Window(s, left, right, isLetter)) <==> IsPal(Letters(s, isLetter))
      decreases right - left
    {
      var same;
      same, left, right := ScanStep(s, left, right, isLetter);
      if !same {
        return false;
      }
    }
    SmallWindowIsPal(s, left, right, isLetter);
    b := true;
  }

  /** The empty string and any one-byte string are palindromes. */
  lemma ShortStringsArePalindromes(s: seq<byte>, isLetter: byte -> bool)
    requires |s| <= 1
    ensures IsPal(Letters(s, isLetter))
  {
    if |s| == 1 {
      LettersOfOne(s, isLetter);
    }
    SmallIsPal(Letters(s, isLetter));
  }

  /** A string of letters only is its own letter subsequence. */
  lemma {:induction false} AllLetters(s: seq<byte>, isLetter: byte -> bool)
    requires forall i :: 0 <= i < |s| ==> isLetter(s[i])
    ensures Letters(s, isLetter) == s
    decreases |s|
  {
    if |s| > 0 {
      AllLetters(s[1..], isLetter);
      assert [s[0]] + s[1..] == s;
    }
  }

  /** The four cases of the tests the code meets: "aa" and "aba" are
      palindromes, "ab" and "abc" are not; and "abA" is not, because bytes
      are compared without case folding. */
  lemma Examples()
    ensures IsPal(Letters([97, 97], IsLatin1Letter))
    ensures IsPal(Letters([97, 98, 97], IsLatin1Letter))
    ensures !IsPal(Letters([97, 98], IsLatin1Letter))
    ensures !IsPal(Letters([97, 98, 99], IsLatin1Letter))
    ensures !IsPal(Letters([97, 98, 65], IsLatin1Letter))
  {
    var aa: seq<byte> := [97, 97];
    var aba: seq<byte> := [97, 98, 97];
    var ab: seq<byte> := [97, 98];
    var abc: seq<byte> := [97, 98, 99];
    var abA: seq<byte> := [97, 98, 65];
    AllLetters(aa, IsLatin1Letter);
    AllLetters(aba, IsLatin1Letter);
    AllLetters(ab, IsLatin1Letter);
    AllLetters(abc, IsLatin1Letter);
    AllLetters(abA, IsLatin1Letter);
    assert ab[0] != ab[1];
    assert abc[0] != abc[2];
    assert abA[0] != abA[2];
  }
}

=== FILE: task_store.dfy ===
/** The in-memory task list of task_manager/data: a sequence of tasks and
    the next ID to hand out. The package-level variables become an explicit
    `Store` value that every operation takes and, when it mutates, returns. */
module TaskStore {

  const TaskNotFound: string := "task not found"

  datatype Task = Task(id: int, title: string, description: string, dueDate: string, status: string)

  datatype Store = Store(tasks: seq<Task>, nextId: int)

  datatype Result<T> = Ok(value: T) | Err(message: string)

  /** The five tasks the list starts with, and the counter after them. */
  const Seed: Store := Store([
    Task(1, "Task 1", "Description 1", "10/5/2024", "In Progress"),
    Task(2, "Task 2", "Description 2", "4/6/2024", "Completed"),
    Task(3, "Task 3", "Description 3", "4/4/2024", "Not Started"),
    Task(4, "Task 4", "Description 4", "3/7/2024", "In Progress"),
    Task(5, "Task 5", "Description 5", "1/8/2024", "Not Started")
  ], 6)

  /** The store's invariant: IDs are pairwise distinct and all below the
      next ID to be assigned. */
  ghost predicate Valid(s: Store)
  {
    && (forall i, j :: 0 <= i < j < |s.tasks| ==> s.tasks[i].id != s.tasks[j].id)
    && (forall i :: 0 <= i < |s.tasks| ==> s.tasks[i].id < s.nextId)
  }

  ghost predicate HasId(tasks: seq<Task>, id: int)
  {
    exists i :: 0 <= i < |tasks| && tasks[i].id == id
  }

  datatype Position = Absent | At(index: nat)

  /** The position of the first task with the given ID, if any. */
  function FirstIndex(tasks: seq<Task>, id: int): (r: Position)
    ensures r.Absent? <==> !HasId(tasks, id)
    ensures r.At? ==> 0 <= r.index < |tasks| && tasks[r.index].id == id
    ensures r.At? ==> forall j :: 0 <= j < r.index ==> tasks[j].id != id
  {
    if |tasks| == 0 then Absent
    else if tasks[0].id == id then At(0)
    else
      match FirstIndex(tasks[1..], id)
      case Absent =>
        assert forall i :: 0 < i < |tasks| ==> tasks[i] == tasks[1..][i - 1];
        Absent
      case At(k) =>
        assert tasks[1..][k] == tasks[k + 1];
        At(k + 1)
  }

  lemma SeedIsValid()
    ensures Valid(Seed)
  {
  }

  function GetTasks(s: Store): (r: seq<Task>)
    ensures Valid(s) ==> forall i, j :: 0 <= i < j < |r| ==> r[i].id != r[j].id
    ensures r == s.tasks
  {
    s.tasks
  }

  /** The first task with the ID, or "task not found". */
  function GetTaskById(s: Store, id: int): (r: Result<Task>)
    ensures r.Err? <==> !HasId(s.tasks, id)
    ensures r.Err? ==> r.message == TaskNotFound
    ensures r.Ok? ==> r.value.id == id && r.value in s.tasks
    ensures r.Ok? ==> exists i :: 0 <= i < |s.tasks| && s.tasks[i] == r.value &&
                                forall j :: 0 <= j < i ==> s.tasks[j].id != id
  {
    match FirstIndex(s.tasks, id)
    case Absent => Err(TaskNotFound)
    case At(i) => Ok(s.tasks[i])
  }

  /** Appends the task under a fresh ID; the client's ID is discarded. */
  function CreateTask(s: Store, task: Task): (r: (Store, Task))
    ensures r.1 == task.(id := s.nextId)
    ensures r.0.tasks == s.tasks + [r.1]
    ensures r.0.nextId == s.nextId + 1
    ensures Valid(s) ==> !HasId(s.tasks, r.1.id)
    ensures Valid(s) ==> Valid(r.0)
  {
    var created := task.(id := s.nextId);
    (Store(s.tasks + [created], s.nextId + 1), created)
  }

  /** The task with every non-empty field of `update` written over it; the
      ID is never changed. */
  function Merge(task: Task, update: Task): (r: Task)
    ensures r.id == task.id
    ensures r.title == (if update.title != "" then update.title else task.title)
    ensures r.description == (if update.description != "" then update.description else task.description)
    ensures r.dueDate == (if update.dueDate != "" then update.dueDate else task.dueDate)
    ensures r.status == (if update.status != "" then update.status else task.status)
  {
    Task(task.id,
         if update.title != "" then update.title else task.title,
         if update.description != "" then update.description else task.description,
         if update.dueDate != "" then update.dueDate else task.dueDate,
         if update.status != "" then update.status else task.status)
  }

  /** Merges `update` into the first task with the ID and returns it;
      "task not found" and an unchanged store otherwise. */
  function UpdateTask(s: Store, id: int, update: Task): (r: (Store, Result<Task>))
    ensures r.1.Err? <==> !HasId(s.tasks, id)
    ensures r.1.Err? ==> r.1.message == TaskNotFound && r.0 == s
    ensures r.1.Ok? ==>
              exists i :: 0 <= i < |s.tasks| && s.tasks[i].id == id
                && (forall j :: 0 <= j < i ==> s.tasks[j].id != id)
                && r.1.value == Merge(s.tasks[i], update)
                && r.0 == s.(tasks := s.tasks[i := r.1.value])
    ensures Valid(s) ==> Valid(r.0)
  {
    match FirstIndex(s.tasks, id)
    case Absent => (s, Err(TaskNotFound))
    case At(i) =>
      var merged := Merge(s.tasks[i], update);
      (s.(tasks := s.tasks[i := merged]), Ok(merged))
  }

  /** Removes the first task with the ID, keeping the order of the rest;
      "task not found" and an unchanged store otherwise. */
  function DeleteTask(s: Store, id: int): (r: (Store, Result<()>))
    ensures r.1.Err? <==> !HasId(s.tasks, id)
    ensures r.1.Err? ==> r.1.message == TaskNotFound && r.0 == s
    ensures r.1.Ok? ==>
              exists i :: 0 <= i < |s.tasks| && s.tasks[i].id == id
                && (forall j :: 0 <= j < i ==> s.tasks[j].id != id)
                && r.0 == s.(tasks := s.tasks[..i] + s.tasks[i + 1..])
    ensures r.1.Ok? ==> |r.0.tasks| == |s.tasks| - 1
    ensures r.0.nextId == s.nextId
    ensures Valid(s) ==> Valid(r.0)
  {
    match FirstIndex(s.tasks, id)
    case Absent => (s, Err(TaskNotFound))
    case At(i) => (s.(tasks := s.tasks[..i] + s.tasks[i + 1..]), Ok(()))
  }

  /** A merge with an all-empty update changes nothing. */
  lemma MergeEmptyIsIdentity(task: Task, update: Task)
    requires update.title == "" && update.description == ""
    requires update.dueDate == "" && update.status == ""
    ensures Merge(task, update) == task
  {
  }

  /** Applying the same update twice is the same as applying it once. */
  lemma MergeIdempotent(task: Task, update: Task)
    ensures Merge(Merge(task, update), update) == Merge(task, update)
  {
  }

  /** A created task is the last in the list and is what a lookup of its
      new ID finds. */
  lemma CreateThenGet(s: Store, task: Task)
    requires Valid(s)
    ensures var (s', created) := CreateTask(s, task);
            && GetTasks(s')[|GetTasks(s')| - 1] == created
            && GetTaskById(s', created.id) == Ok(created)
  {
    var (s', created) := CreateTask(s, task);
    assert s'.tasks[|s.tasks|] == created;
    match FirstIndex(s'.tasks, created.id)
    case Absent =>
      assert false;
    case At(i) =>
      assert i == |s.tasks|;
  }

  /** After an update, a lookup of the ID finds the merged task. */
  lemma UpdateThenGet(s: Store, id: int, update: Task)
    requires Valid(s)
    requires HasId(s.tasks, id)
    ensures var (s', r) := UpdateTask(s, id, update);
            r.Ok? && GetTaskById(s', id) == r
  {
    var (s', r) := UpdateTask(s, id, update);
    var i := FirstIndex(s.tasks, id).index;
    assert s'.tasks[i] == r.value;
    match FirstIndex(s'.tasks, id)
    case Absent =>
      assert false;
    case At(j) =>
      assert j == i;
  }

  /** Since IDs are distinct, a deleted ID is gone for good. */
  lemma DeleteThenGet(s: Store, id: int)
    requires Valid(s)
    ensures GetTaskById(DeleteTask(s, id).0, id).Err?
  {
    var s' := DeleteTask(s, id).0;
    match FirstIndex(s.tasks, id)
    case Absent =>
    case At(i) =>
      forall j | 0 <= j < |s'.tasks|
        ensures s'.tasks[j].id != id
      {
        if j < i {
          assert s'.tasks[j] == s.tasks[j];
        } else {
          assert s'.tasks[j] == s.tasks[j + 1];
        }
      }
  }
}

=== FILE: task_usecases.dfy ===
/** The task use-case layer of task_manager_with_clean_architecture: the
    business rules in front of an abstract task repository.

    The repository is the five-method interface of the Go code, here a record
    of functions over an explicit store of tasks. Each call returns a sum
    type: a value, or one of the domain error kinds. Nothing is assumed of
    how a repository behaves except where a lemma says so. */
module TaskUsecases {
  import opened Common
  import opened Domain

  const TaskExists: string := "Task already exists"

  type Store = map<ObjectId, Task>

  datatype Result<+T> = Ok(value: T) | Err(error: DomainError)

  datatype TaskRepository = TaskRepository(
    create: (Store, Task) -> (Store, Result<()>),
    get: (Store, ObjectId) -> Result<Task>,
    list: Store -> Result<seq<Task>>,
    update: (Store, ObjectId, Task) -> (Store, Result<()>),
    delete: (Store, ObjectId) -> (Store, Result<()>))

  /** Some task in `tasks` has the title. */
  predicate HasTitle(tasks: seq<Task>, title: string)
  {
    exists i :: 0 <= i < |tasks| && tasks[i].title == title
  }

  /** The tasks the duplicate check sees: a failed listing is discarded and
      counts as no tasks at all. */
  function Existing(listed: Result<seq<Task>>): (r: seq<Task>)
    ensures listed.Err? ==> r == []
    ensures listed.Ok? ==> r == listed.value
  {
    match listed
    case Ok(tasks) => tasks
    case Err(_) => []
  }

  /** Validate, then refuse a title that is already taken, then delegate. */
  function CreateTask(repo: TaskRepository, store: Store, task: Task, now: Time): (r: (Store, Result<()>))
    // an invalid task never reaches the repository
    ensures Validate(task, now).Some? ==>
              r == (store, Err(BadRequestError(Validate(task, now).value)))
    // a taken title is refused and nothing is stored
    ensures Validate(task, now).None? && HasTitle(Existing(repo.list(store)), task.title) ==>
              r == (store, Err(BadRequestError(TaskExists)))
    // a failed listing hides every existing title
    ensures Validate(task, now).None? && repo.list(store).Err? ==> r == repo.create(store, task)
    // otherwise exactly what the repository's create returns
    ensures Validate(task, now).None? && !HasTitle(Existing(repo.list(store)), task.title) ==>
              r == repo.create(store, task)
    // every error the layer itself makes is a bad request
    ensures r != repo.create(store, task) ==> r.0 == store && r.1.Err? && r.1.error.BadRequestError?
  {
    match Validate(task, now)
    case Some(msg) => (store, Err(BadRequestError(msg)))
    case None =>
      if HasTitle(Existing(repo.list(store)), task.title) then
        (store, Err(BadRequestError(TaskExists)))
      else
        repo.create(store, task)
  }

  function GetTask(repo: TaskRepository, store: Store, id: ObjectId): (r: Result<Task>)
    ensures r == repo.get(store, id)
  {
    repo.get(store, id)
  }

  function GetTasks(repo: TaskRepository, store: Store): (r: Result<seq<Task>>)
    ensures r == repo.list(store)
  {
    repo.list(store)
  }

  /** Validate, then delegate; there is no title-uniqueness check here. */
  function UpdateTask(repo: TaskRepository, store: Store, id: ObjectId, task: Task, now: Time): (r: (Store, Result<()>))
    ensures Validate(task, now).Some? ==>
              r == (store, Err(BadRequestError(Validate(task, now).value)))
    ensures Validate(task, now).None? ==> r == repo.update(store, id, task)
  {
    match Validate(task, now)
    case Some(msg) => (store, Err(BadRequestError(msg)))
    case None => repo.update(store, id, task)
  }

  function DeleteTask(repo: TaskRepository, store: Store, id: ObjectId): (r: (Store, Result<()>))
    ensures r == repo.delete(store, id)
  {
    repo.delete(store, id)
  }

  /** A repository whose successful create makes the task's title visible to
      the next listing. */
  ghost predicate ListsWhatItCreates(repo: TaskRepository)
  {
    forall s: Store, t: Task {:trigger repo.create(s, t)} ::
      repo.create(s, t).1.Ok? ==>
        var after := repo.create(s, t).0;
        repo.list(after).Ok? && HasTitle(repo.list(after).value, t.title)
  }

  /** Over such a repository, creating a second task with a title already
      created fails with a bad request and leaves the store as it was. */
  lemma SecondCreateWithSameTitleFails(repo: TaskRepository, store: Store, first: Task, second: Task, now: Time)
    requires ListsWhatItCreates(repo)
    requires CreateTask(repo, store, first, now).1.Ok?
    requires second.title == first.title
    requires Validate(second, now).None?
    ensures var mid := CreateTask(repo, store, first, now).0;
            CreateTask(repo, mid, second, now) == (mid, Err(BadRequestError(TaskExists)))
  {
    var mid := CreateTask(repo, store, first, now).0;
    assert CreateTask(repo, store, first, now) == repo.create(store, first);
    assert repo.list(mid).Ok? && HasTitle(repo.list(mid).value, first.title);
  }

  /** Updating is not guarded by title uniqueness: a valid update passes to
      the repository even when another task has the same title. */
  lemma UpdateIgnoresTitleClash(repo: TaskRepository, store: Store, id: ObjectId, task: Task, now: Time)
    requires Validate(task, now).None?
    requires HasTitle(Existing(repo.list(store)), task.title)
    ensures UpdateTask(repo, store, id, task, now) == repo.update(store, id, task)
    ensures CreateTask(repo, store, task, now) == (store, Err(BadRequestError(TaskExists)))
  {
  }
}

=== FILE: user_service.dfy ===
/** User registration, authentication and promotion of task_manager_with_auth
    over an abstract user collection.

    The document store becomes a sequence of users in insertion order, and
    whether each driver call fails is an input (`Faults`). bcrypt becomes two
    parameters: `hasher`, the hashing call made for this request (the salt
    is folded into it), and `compare`, the comparison of a stored hash with
    a candidate password, which gives nothing when they match and its error
    otherwise. */
module UserService {
  import opened Common

  const Admin: string := "admin"
  const RoleUser: string := "user"

  const UsernameTaken: string := "username already exists"
  /** The driver's error when a lookup matches no document. */
  const NoDocuments: string := "mongo: no documents in result"
  /** The comparison's error when a well-formed hash is not the hash of the
      password. */
  const Mismatch: string := "crypto/bcrypt: hashedPassword is not the hash of the given password"

  /** The stored user document of models.User; `password` holds the hash. */
  datatype User = User(id: ObjectId, username: string, password: string, role: string)

  datatype Collection = Collection(users: seq<User>)

  /** Which driver calls of this request fail, and with what message. */
  datatype Faults = Faults(find: Option<string>, count: Option<string>, insert: Option<string>)

  datatype HashResult = Hashed(hash: string) | HashFailed(message: string)

  datatype Outcome = Ok | Err(message: string)

  datatype Result<+T> = Success(value: T) | Failure(message: string)

  /** The three outcomes of looking a username up. */
  datatype Lookup = Found(user: User) | NotFound | LookupFailed(message: string)

  /** The position of the first user satisfying the username or ID filter. */
  function FirstWith(users: seq<User>, byName: bool, key: string, id: ObjectId): (r: Option<nat>)
    ensures r.None? <==> forall i :: 0 <= i < |users| ==> !Selects(users[i], byName, key, id)
    ensures r.Some? ==> r.value < |users| && Selects(users[r.value], byName, key, id)
    ensures r.Some? ==> forall j :: 0 <= j < r.value ==> !Selects(users[j], byName, key, id)
  {
    if |users| == 0 then None
    else if Selects(users[0], byName, key, id) then Some(0)
    else
      match FirstWith(users[1..], byName, key, id)
      case None =>
        assert forall i :: 0 < i < |users| ==> users[i] == users[1..][i - 1];
        None
      case Some(k) =>
        assert users[1..][k] == users[k + 1];
        Some(k + 1)
  }

  predicate Selects(u: User, byName: bool, key: string, id: ObjectId)
  {
    if byName then u.username == key else u.id == id
  }

  /** FindOne by username: the first user with that name, none, or a
      driver failure. */
  function FindByUsername(c: Collection, username: string, fault: Option<string>): (r: Lookup)
    ensures fault.Some? ==> r == LookupFailed(fault.value)
    ensures r.LookupFailed? <==> fault.Some?
    ensures fault.None? ==>
              (r.Found? <==> exists i :: 0 <= i < |c.users| && c.users[i].username == username)
    ensures fault.None? && r.Found? ==> r.user in c.users && r.user.username == username
    ensures fault.None? ==> (r == NotFound <==> forall i :: 0 <= i < |c.users| ==> c.users[i].username != username)
  {
    if fault.Some? then LookupFailed(fault.value)
    else
      match FirstWith(c.users, true, username, NilId)
      case None => NotFound
      case Some(i) => Found(c.users[i])
  }

  /** CreateUser: refuse a known username, hash the password, pick the role
      from the current count, insert. A lookup that fails for any reason
      other than finding the user lets registration go on. */
  function CreateUser(c: Collection, user: User, hasher: string -> HashResult, freshId: ObjectId, faults: Faults): (r: (Collection, Outcome))
    ensures FindByUsername(c, user.username, faults.find).Found? ==> r == (c, Err(UsernameTaken))
    ensures r.1.Err? ==> r.0 == c
    ensures r.1 == Ok <==>
              && !FindByUsername(c, user.username, faults.find).Found?
              && hasher(user.password).Hashed?
              && faults.count.None?
              && faults.insert.None?
    ensures !FindByUsername(c, user.username, faults.find).Found? && hasher(user.password).HashFailed? ==>
              r == (c, Err(hasher(user.password).message))
    // a failed count or insert returns the driver's error unchanged
    ensures (!FindByUsername(c, user.username, faults.find).Found? && hasher(user.password).Hashed?
             && faults.count.Some?) ==> r == (c, Err(faults.count.value))
    ensures (!FindByUsername(c, user.username, faults.find).Found? && hasher(user.password).Hashed?
             && faults.count.None? && faults.insert.Some?) ==> r == (c, Err(faults.insert.value))
    // a successful registration adds exactly one user: the hash, never the
    // plaintext, and the role the count decided
    ensures r.1 == Ok ==>
              |r.0.users| == |c.users| + 1
              && r.0.users[..|c.users|] == c.users
              && var added := r.0.users[|c.users|];
              && added.username == user.username
              && added.password == hasher(user.password).hash
              && (added.role == Admin <==> |c.users| == 0)
              && (added.role == RoleUser <==> |c.users| != 0)
              && added.id == (if user.id == NilId then freshId else user.id)
  {
    if FindByUsername(c, user.username, faults.find).Found? then (c, Err(UsernameTaken))
    else
      match hasher(user.password)
      case HashFailed(msg) => (c, Err(msg))
      case Hashed(h) =>
        if faults.count.Some? then (c, Err(faults.count.value))
        else
          var role := if |c.users| == 0 then Admin else RoleUser;
          var id := if user.id == NilId then freshId else user.id;
          var stored := User(id, user.username, h, role);
          if faults.insert.Some? then (c, Err(faults.insert.value))
          else (Collection(c.users + [stored]), Ok)
  }

  /** The user with that name whose stored hash matches the password, or
      the error of the lookup or of the comparison, passed through as is. */
  function AuthenticateUser(c: Collection, username: string, password: string,
                            compare: (string, string) -> Option<string>, fault: Option<string>): (r: Result<User>)
    ensures r.Success? <==>
              var found := FindByUsername(c, username, fault);
              found.Found? && compare(found.user.password, password).None?
    ensures r.Success? ==>
              && r.value == FindByUsername(c, username, fault).user
              && r.value in c.users && r.value.username == username
    ensures fault.Some? ==> r == Failure(fault.value)
    ensures fault.None? && (forall i :: 0 <= i < |c.users| ==> c.users[i].username != username) ==>
              r == Failure(NoDocuments)
    ensures var found := FindByUsername(c, username, fault);
            found.Found? && compare(found.user.password, password).Some? ==>
              r == Failure(compare(found.user.password, password).value)
  {
    match FindByUsername(c, username, fault)
    case LookupFailed(msg) => Failure(msg)
    case NotFound => Failure(NoDocuments)
    case Found(u) =>
      match compare(u.password, password)
      case None => Success(u)
      case Some(msg) => Failure(msg)
  }

  /** UpdateOne on the ID: the first user with it becomes an admin, nothing
      else changes; an ID that matches no user is not an error. */
  function PromoteUser(c: Collection, id: ObjectId, fault: Option<string>): (r: (Collection, Outcome))
    ensures fault.Some? ==> r == (c, Err(fault.value))
    ensures fault.None? ==> r.1 == Ok && |r.0.users| == |c.users|
    ensures fault.None? ==>
              forall i :: 0 <= i < |c.users| ==>
                r.0.users[i] == c.users[i]
                || (c.users[i].id == id && r.0.users[i] == c.users[i].(role := Admin))
    ensures fault.None? && (exists i :: 0 <= i < |c.users| && c.users[i].id == id) ==>
              exists i :: 0 <= i < |c.users| && c.users[i].id == id && r.0.users[i].role == Admin
  {
    if fault.Some? then (c, Err(fault.value))
    else
      match FirstWith(c.users, false, "", id)
      case None => (c, Ok)
      case Some(i) => (Collection(c.users[i := c.users[i].(role := Admin)]), Ok)
  }

  /** The first user registered in an empty store is an admin; anyone
      registered after that is a plain user. */
  lemma FirstUserIsAdmin(user: User, second: User, hasher: string -> HashResult, id1: ObjectId, id2: ObjectId)
    requires hasher(user.password).Hashed? && hasher(second.password).Hashed?
    requires second.username != user.username
    ensures var (c1, o1) := CreateUser(Collection([]), user, hasher, id1, Faults(None, None, None));
            && o1 == Ok && c1.users[0].role == Admin
            && var (c2, o2) := CreateUser(c1, second, hasher, id2, Faults(None, None, None));
            && o2 == Ok && c2.users[1].role == RoleUser
  {
    var none := Faults(None, None, None);
    var (c1, o1) := CreateUser(Collection([]), user, hasher, id1, none);
    assert |c1.users| == 1 && c1.users[0].username == user.username;
    assert FindByUsername(c1, second.username, None) == NotFound;
  }

  /** Promoting the same ID twice is the same as promoting it once. */
  lemma PromoteTwiceIsOnce(c: Collection, id: ObjectId)
    ensures var (c1, _) := PromoteUser(c, id, None);
            PromoteUser(c1, id, None) == PromoteUser(c, id, None)
  {
    var (c1, _) := PromoteUser(c, id, None);
    match FirstWith(c.users, false, "", id)
    case None =>
    case Some(i) =>
      assert c1.users[i].id == id;
      assert forall j :: 0 <= j < i ==> c1.users[j] == c.users[j];
      match FirstWith(c1.users, false, "", id)
      case None =>
        assert false;
      case Some(k) =>
        assert k == i;
        assert c1.users[i := c1.users[i].(role := Admin)] == c1.users;
  }

  /** Registration followed by login with the same password finds the new
      user, provided the comparison accepts the hash made from it. */
  lemma RegisterThenAuthenticate(c: Collection, user: User, hasher: string -> HashResult,
                                 compare: (string, string) -> Option<string>, freshId: ObjectId)
    requires forall i :: 0 <= i < |c.users| ==> c.users[i].username != user.username
    requires hasher(user.password).Hashed?
    requires compare(hasher(user.password).hash, user.password).None?
    ensures var (c', o) := CreateUser(c, user, hasher, freshId, Faults(None, None, None));
            && o == Ok
            && AuthenticateUser(c', user.username, user.password, compare, None) == Success(c'.users[|c.users|])
  {
    var (c', o) := CreateUser(c, user, hasher, freshId, Faults(None, None, None));
    var added := c'.users[|c.users|];
    assert forall i :: 0 <= i < |c.users| ==> c'.users[i] == c.users[i];
    match FirstWith(c'.users, true, user.username, NilId)
    case None =>
      assert false;
    case Some(k) =>
      assert k == |c.users|;
  }

  /** A wrong password and an unknown username are reported differently:
      the underlying errors surface unchanged. */
  lemma LoginErrorsDiffer(c: Collection, username: string, password: string,
                          compare: (string, string) -> Option<string>)
    requires exists i :: 0 <= i < |c.users| && c.users[i].username == username
    requires forall i :: 0 <= i < |c.users| ==> compare(c.users[i].password, password) == Some(Mismatch)
    ensures AuthenticateUser(c, username, password, compare, None) == Failure(Mismatch)
    ensures AuthenticateUser(Collection([]), username, password, compare, None) == Failure(NoDocuments)
    ensures Mismatch != NoDocuments
  {
  }
}

=== FILE: word_frequency.dfy ===
/** wordFrequency of fundamentals_of_go: rewrite every rune of the input,
    split the result on white space (strings.Fields), count each field.

    The rewrite is the reverse of what its comment announces: a rune that is
    NOT punctuation becomes a space and a punctuation rune is kept,
    lowercased. So the keys are runs of punctuation. `WordFrequency` models
    the code as written; `IntendedWordFrequency` models the comment.

    Runes are integers (the input is already decoded from UTF-8), and the
    Unicode tables unicode.IsPunct, unicode.IsSpace and unicode.ToLower are
    abstract: the fields of a `Classes` value. */
module WordFrequency {
  import opened Common

  type Rune = int

  const Space: Rune := 32

  datatype Classes = Classes(isPunct: Rune -> bool, isSpace: Rune -> bool, toLower: Rune -> Rune)

  /** What the code relies on of the tables: ' ' is white space and
      lowercasing punctuation never yields white space. */
  ghost predicate Sane(c: Classes)
  {
    && c.isSpace(Space)
    && (forall r :: c.isPunct(r) ==> !c.isSpace(c.toLower(r)))
  }

  /** Lowercasing keeps whether a rune is white space; the intended rewrite
      relies on it for the runes it lowercases. */
  ghost predicate LowerKeepsSpace(c: Classes)
  {
    forall r :: c.isSpace(c.toLower(r)) <==> c.isSpace(r)
  }

  /** Which runes a run is made of: non-space runes (the fields of
      strings.Fields), punctuation, or word runes (neither punctuation nor
      white space). */
  datatype Kind = NonSpace | Punct | WordRune

  predicate Keeps(c: Classes, k: Kind, r: Rune)
  {
    match k
    case NonSpace => !c.isSpace(r)
    case Punct => c.isPunct(r)
    case WordRune => !c.isPunct(r) && !c.isSpace(r)
  }

  /** The length of the longest prefix of runes of kind `k`. */
  function RunLength(c: Classes, xs: seq<Rune>, k: Kind): (n: nat)
    ensures n <= |xs|
    ensures forall i :: 0 <= i < n ==> Keeps(c, k, xs[i])
    ensures n < |xs| ==> !Keeps(c, k, xs[n])
  {
    if |xs| == 0 || !Keeps(c, k, xs[0]) then 0
    else
      var n := RunLength(c, xs[1..], k);
      assert forall i :: 1 <= i < n + 1 ==> xs[i] == xs[1..][i - 1];
      1 + n
  }

  /** The maximal runs of consecutive runes of kind `k`, left to right. */
  function Runs(c: Classes, xs: seq<Rune>, k: Kind): (r: seq<seq<Rune>>)
    ensures forall i :: 0 <= i < |r| ==> |r[i]| > 0
    ensures forall i, j :: 0 <= i < |r| && 0 <= j < |r[i]| ==> Keeps(c, k, r[i][j])
    decreases |xs|
  {
    if |xs| == 0 then []
    else if !Keeps(c, k, xs[0]) then Runs(c, xs[1..], k)
    else
      var n := RunLength(c, xs, k);
      [xs[..n]] + Runs(c, xs[n..], k)
  }

  function Lower(c: Classes, w: seq<Rune>): (r: seq<Rune>)
    ensures |r| == |w|
  {
    seq(|w|, i requires 0 <= i < |w| => c.toLower(w[i]))
  }

  function LowerAll(c: Classes, ws: seq<seq<Rune>>): (r: seq<seq<Rune>>)
    ensures |r| == |ws|
  {
    seq(|ws|, i requires 0 <= i < |ws| => Lower(c, ws[i]))
  }

  /** The rewrite loop as written: non-punctuation becomes a space,
      punctuation is lowercased. */
  function Rewrite(c: Classes, s: seq<Rune>): (r: seq<Rune>)
    ensures |r| == |s|
    ensures forall i :: 0 <= i < |s| && !c.isPunct(s[i]) ==> r[i] == Space
    ensures forall i :: 0 <= i < |s| && c.isPunct(s[i]) ==> r[i] == c.toLower(s[i])
  {
    seq(|s|, i requires 0 <= i < |s| => if !c.isPunct(s[i]) then Space else c.toLower(s[i]))
  }

  /** strings.Fields: the maximal runs of non-space runes. Every field is
      non-empty and free of white space, text that is all white space (the
      empty text included) has no fields, and non-empty text without white
      space is one field. With `FieldsSplit` this fixes the result on every
      text. */
  function Fields(c: Classes, t: seq<Rune>): (r: seq<seq<Rune>>)
    ensures forall i :: 0 <= i < |r| ==> |r[i]| > 0
    ensures forall i, j :: 0 <= i < |r| && 0 <= j < |r[i]| ==> !c.isSpace(r[i][j])
    ensures (forall i :: 0 <= i < |t| ==> c.isSpace(t[i])) ==> r == []
    ensures |t| > 0 && (forall i :: 0 <= i < |t| ==> !c.isSpace(t[i])) ==> r == [t]
  {
    NoRuns(c, t, NonSpace);
    OneRun(c, t, NonSpace);
    Runs(c, t, NonSpace)
  }

  /** Splitting text at a white-space rune splits its fields: the fields of
      `a + [sp] + b` are those of `a` followed by those of `b`. */
  lemma FieldsSplit(c: Classes, a: seq<Rune>, sp: Rune, b: seq<Rune>)
    requires c.isSpace(sp)
    ensures Fields(c, a + [sp] + b) == Fields(c, a) + Fields(c, b)
  {
    RunsSplit(c, a, sp, b, NonSpace);
  }

  lemma OneRun(c: Classes, xs: seq<Rune>, k: Kind)
    ensures |xs| > 0 && (forall i :: 0 <= i < |xs| ==> Keeps(c, k, xs[i])) ==> Runs(c, xs, k) == [xs]
  {
    if |xs| > 0 && (forall i :: 0 <= i < |xs| ==> Keeps(c, k, xs[i])) {
      var n := RunLength(c, xs, k);
      assert n == |xs|;
      assert xs[..n] == xs;
      assert Runs(c, xs[n..], k) == [];
    }
  }

  /** A rune outside kind `k` ends the run it follows. */
  lemma {:induction false} RunLengthStops(c: Classes, a: seq<Rune>, sp: Rune, b: seq<Rune>, k: Kind)
    requires !Keeps(c, k, sp)
    ensures RunLength(c, a + [sp] + b, k) == RunLength(c, a, k)
    decreases |a|
  {
    var xs := a + [sp] + b;
    if |a| > 0 && Keeps(c, k, a[0]) {
      assert xs[1..] == a[1..] + [sp] + b;
      RunLengthStops(c, a[1..], sp, b, k);
    }
  }

  lemma {:induction false} RunsSplit(c: Classes, a: seq<Rune>, sp: Rune, b: seq<Rune>, k: Kind)
    requires !Keeps(c, k, sp)
    ensures Runs(c, a + [sp] + b, k) == Runs(c, a, k) + Runs(c, b, k)
    decreases |a|
  {
    if |a| == 0 {
      assert (a + [sp] + b)[1..] == b;
    } else if !Keeps(c, k, a[0]) {
      RunsSplit(c, a[1..], sp, b, k);
      SkipStep(c, a, sp, b, k);
    } else {
      var m := RunLength(c, a, k);
      RunsSplit(c, a[m..], sp, b, k);
      RunStep(c, a, sp, b, k);
    }
  }

  /** The step of `RunsSplit` past a leading rune outside kind `k`. */
  lemma SkipStep(c: Classes, a: seq<Rune>, sp: Rune, b: seq<Rune>, k: Kind)
    requires |a| > 0 && !Keeps(c, k, a[0])
    requires Runs(c, a[1..] + [sp] + b, k) == Runs(c, a[1..], k) + Runs(c, b, k)
    ensures Runs(c, a + [sp] + b, k) == Runs(c, a, k) + Runs(c, b, k)
  {
    SliceAround(a, sp, b, 1);
  }

  /** The step of `RunsSplit` past a leading run of kind `k`. */
  lemma RunStep(c: Classes, a: seq<Rune>, sp: Rune, b: seq<Rune>, k: Kind)
    requires !Keeps(c, k, sp) && |a| > 0 && Keeps(c, k, a[0])
    requires Runs(c, a[RunLength(c, a, k)..] + [sp] + b, k) == Runs(c, a[RunLength(c, a, k)..], k) + Runs(c, b, k)
    ensures Runs(c, a + [sp] + b, k) == Runs(c, a, k) + Runs(c, b, k)
  {
    var m := RunLength(c, a, k);
    RunLengthStops(c, a, sp, b, k);
    SliceAround(a, sp, b, m);
    LeadingRun(c, a + [sp] + b, k);
    LeadingRun(c, a, k);
  }

  /** Runs over text that starts inside a run: that run, then the rest. */
  lemma LeadingRun(c: Classes, xs: seq<Rune>, k: Kind)
    requires |xs| > 0 && Keeps(c, k, xs[0])
    ensures Runs(c, xs, k) == [xs[..RunLength(c, xs, k)]] + Runs(c, xs[RunLength(c, xs, k)..], k)
  {
  }

  /** Cutting `a + [sp] + b` inside `a`. */
  lemma SliceAround(a: seq<Rune>, sp: Rune, b: seq<Rune>, m: nat)
    requires m <= |a|
    ensures (a + [sp] + b)[..m] == a[..m]
    ensures (a + [sp] + b)[m..] == a[m..] + [sp] + b
    ensures |a| > 0 ==> (a + [sp] + b)[0] == a[0]
  {
  }

  /** `frequency[word]++` on a Go map, where a missing key reads as 0. */
  function Bump(m: map<seq<Rune>, int>, w: seq<Rune>): map<seq<Rune>, int>
  {
    m[w := (if w in m then m[w] else 0) + 1]
  }

  /** The frequency map of a list of words, counted front to back. */
  function Count(ws: seq<seq<Rune>>): (m: map<seq<Rune>, int>)
    ensures forall w :: w in m <==> multiset(ws)[w] > 0
    ensures forall w :: w in m ==> m[w] == multiset(ws)[w]
  {
    if |ws| == 0 then map[]
    else
      var w := ws[|ws| - 1];
      assert ws == ws[..|ws| - 1] + [w];
      Bump(Count(ws[..|ws| - 1]), w)
  }

  /** wordFrequency as written: the keys are exactly the fields of the
      rewritten text, each mapped to how often it occurs. */
  function WordFrequency(c: Classes, s: seq<Rune>): (m: map<seq<Rune>, int>)
    ensures forall w :: w in m <==> w in Fields(c, Rewrite(c, s))
    ensures forall w :: w in m ==> m[w] == multiset(Fields(c, Rewrite(c, s)))[w] >= 1
  {
    Count(Fields(c, Rewrite(c, s)))
  }

  /** Runes of kind p in xs sit exactly where runes of kind q sit in ys,
      and each of the former lowercases to the latter. */
  ghost predicate Corresponds(c: Classes, xs: seq<Rune>, ys: seq<Rune>, p: Kind, q: Kind)
  {
    && |xs| == |ys|
    && (forall i :: 0 <= i < |xs| ==> (Keeps(c, q, ys[i]) <==> Keeps(c, p, xs[i])))
    && (forall i :: 0 <= i < |xs| && Keeps(c, p, xs[i]) ==> ys[i] == c.toLower(xs[i]))
  }

  lemma CorrespondsSuffix(c: Classes, xs: seq<Rune>, ys: seq<Rune>, p: Kind, q: Kind, n: nat)
    requires Corresponds(c, xs, ys, p, q) && n <= |xs|
    ensures Corresponds(c, xs[n..], ys[n..], p, q)
  {
    assert forall i :: 0 <= i < |xs| - n ==> xs[n..][i] == xs[n + i] && ys[n..][i] == ys[n + i];
  }

  lemma {:induction false} RunLengthCommutes(c: Classes, xs: seq<Rune>, ys: seq<Rune>, p: Kind, q: Kind)
    requires Corresponds(c, xs, ys, p, q)
    ensures RunLength(c, ys, q) == RunLength(c, xs, p)
    decreases |xs|
  {
    if |xs| > 0 && Keeps(c, p, xs[0]) {
      CorrespondsSuffix(c, xs, ys, p, q, 1);
      RunLengthCommutes(c, xs[1..], ys[1..], p, q);
    }
  }

  /** Lowercasing the runs of one side gives the runs of the other. */
  lemma {:induction false} RunsCommute(c: Classes, xs: seq<Rune>, ys: seq<Rune>, p: Kind, q: Kind)
    requires Corresponds(c, xs, ys, p, q)
    ensures Runs(c, ys, q) == LowerAll(c, Runs(c, xs, p))
    decreases |xs|
  {
    if |xs| == 0 {
    } else if !Keeps(c, p, xs[0]) {
      CorrespondsSuffix(c, xs, ys, p, q, 1);
      RunsCommute(c, xs[1..], ys[1..], p, q);
    } else {
      var n := RunLength(c, xs, p);
      RunLengthCommutes(c, xs, ys, p, q);
      RunPrefixLowers(c, xs, ys, p, q, n);
      CorrespondsSuffix(c, xs, ys, p, q, n);
      RunsCommute(c, xs[n..], ys[n..], p, q);
      LowerAllCons(c, xs[..n], Runs(c, xs[n..], p));
    }
  }

  lemma RunPrefixLowers(c: Classes, xs: seq<Rune>, ys: seq<Rune>, p: Kind, q: Kind, n: nat)
    requires Corresponds(c, xs, ys, p, q)
    requires n <= |xs| && forall i :: 0 <= i < n ==> Keeps(c, p, xs[i])
    ensures ys[..n] == Lower(c, xs[..n])
  {
  }

  lemma LowerAllCons(c: Classes, w: seq<Rune>, ws: seq<seq<Rune>>)
    ensures LowerAll(c, [w] + ws) == [Lower(c, w)] + LowerAll(c, ws)
  {
  }

  /** The fields of the rewritten text are exactly the lowercased maximal
      runs of punctuation of the input, in order. */
  lemma FieldsArePunctuationRuns(c: Classes, s: seq<Rune>)
    requires Sane(c)
    ensures Fields(c, Rewrite(c, s)) == LowerAll(c, Runs(c, s, Punct))
  {
    assert Corresponds(c, s, Rewrite(c, s), Punct, NonSpace);
    RunsCommute(c, s, Rewrite(c, s), Punct, NonSpace);
  }

  /** The keys are the lowercased punctuation runs of the input, each
      counted as often as it occurs. */
  lemma KeysArePunctuationRuns(c: Classes, s: seq<Rune>)
    requires Sane(c)
    ensures var m := WordFrequency(c, s);
            var runs := LowerAll(c, Runs(c, s, Punct));
            (forall w :: w in m <==> w in runs) && (forall w :: w in m ==> m[w] == multiset(runs)[w] >= 1)
  {
    FieldsArePunctuationRuns(c, s);
  }

  /** The empty input, and any input without punctuation, give the empty
      map. */
  lemma NoPunctuationNoKeys(c: Classes, s: seq<Rune>)
    requires Sane(c)
    requires forall i :: 0 <= i < |s| ==> !c.isPunct(s[i])
    ensures WordFrequency(c, s) == map[]
  {
    FieldsArePunctuationRuns(c, s);
    NoRuns(c, s, Punct);
  }

  lemma {:induction false} NoRuns(c: Classes, xs: seq<Rune>, k: Kind)
    ensures (forall i :: 0 <= i < |xs| ==> !Keeps(c, k, xs[i])) ==> Runs(c, xs, k) == []
    decreases |xs|
  {
    if |xs| > 0 {
      NoRuns(c, xs[1..], k);
    }
  }

  /** The sum of the values of a map. */
  ghost function Total(m: map<seq<Rune>, int>): int
    decreases |m|
  {
    if m == map[] then 0
    else
      assert m.Keys != {} by {
        assert m != map[];
      }
      Inhabited(m.Keys);
      var w :| w in m.Keys;
      m[w] + Total(m - {w})
  }

  /** The sum does not depend on which key is taken out first. */
  lemma {:induction false} TotalRemove(m: map<seq<Rune>, int>, x: seq<Rune>)
    requires x in m
    ensures Total(m) == m[x] + Total(m - {x})
    decreases |m|
  {
    var y :| y in m && Total(m) == m[y] + Total(m - {y});
    if y != x {
      TotalRemove(m - {y}, x);
      TotalRemove(m - {x}, y);
      assert m - {y} - {x} == m - {x} - {y};
    }
  }

  /** Counting one more occurrence of a word adds one to the sum. */
  lemma TotalIncrement(m: map<seq<Rune>, int>, w: seq<Rune>)
    ensures Total(Bump(m, w)) == Total(m) + 1
  {
    var m' := Bump(m, w);
    TotalRemove(m', w);
    assert m' - {w} == m - {w};
    if w in m {
      TotalRemove(m, w);
    } else {
      assert m - {w} == m;
    }
  }

  /** Counting a list is counting all but its last word, then one more
      occurrence of that word. */
  lemma CountLast(ws: seq<seq<Rune>>)
    requires |ws| > 0
    ensures Count(ws) == Bump(Count(ws[..|ws| - 1]), ws[|ws| - 1])
  {
  }

  /** The counts add up to the number of words counted. */
  lemma {:induction false} CountTotal(ws: seq<seq<Rune>>)
    ensures Total(Count(ws)) == |ws|
    decreases |ws|
  {
    if |ws| > 0 {
      var init, w := ws[..|ws| - 1], ws[|ws| - 1];
      CountTotal(init);
      TotalIncrement(Count(init), w);
      CountLast(ws);
    }
  }

  /** Every count is positive and the counts sum to the number of fields. */
  lemma CountsSumToFields(c: Classes, s: seq<Rune>)
    ensures Total(WordFrequency(c, s)) == |Fields(c, Rewrite(c, s))|
    ensures forall w :: w in WordFrequency(c, s) ==> WordFrequency(c, s)[w] >= 1
  {
    CountTotal(Fields(c, Rewrite(c, s)));
  }

  /** The rewrite the comment announces: punctuation becomes a space and
      every other rune is lowercased. */
  function IntendedRewrite(c: Classes, s: seq<Rune>): (r: seq<Rune>)
    ensures |r| == |s|
    ensures forall i :: 0 <= i < |s| && c.isPunct(s[i]) ==> r[i] == Space
    ensures forall i :: 0 <= i < |s| && !c.isPunct(s[i]) ==> r[i] == c.toLower(s[i])
  {
    seq(|s|, i requires 0 <= i < |s| => if c.isPunct(s[i]) then Space else c.toLower(s[i]))
  }

  /** The corrected wordFrequency: the keys are exactly the fields of the
      text rewritten as the comment says, each mapped to how often it
      occurs. */
  function IntendedWordFrequency(c: Classes, s: seq<Rune>): (m: map<seq<Rune>, int>)
    ensures forall w :: w in m <==> w in Fields(c, IntendedRewrite(c, s))
    ensures forall w :: w in m ==> m[w] == multiset(Fields(c, IntendedRewrite(c, s)))[w] >= 1
  {
    Count(Fields(c, IntendedRewrite(c, s)))
  }

  /** With the rewrite the comment describes, the keys are the lowercased
      words: maximal runs of runes that are neither punctuation nor white
      space. */
  lemma IntendedKeysAreWords(c: Classes, s: seq<Rune>)
    requires Sane(c) && LowerKeepsSpace(c)
    ensures Fields(c, IntendedRewrite(c, s)) == LowerAll(c, Runs(c, s, WordRune))
  {
    assert Corresponds(c, s, IntendedRewrite(c, s), WordRune, NonSpace);
    RunsCommute(c, s, IntendedRewrite(c, s), WordRune, NonSpace);
  }

  /** ... and each key counts how often its word occurs. */
  lemma IntendedCountsWords(c: Classes, s: seq<Rune>)
    requires Sane(c) && LowerKeepsSpace(c)
    ensures var m := IntendedWordFrequency(c, s);
            var words := LowerAll(c, Runs(c, s, WordRune));
            (forall w :: w in m <==> w in words) && (forall w :: w in m ==> m[w] == multiset(words)[w])
  {
    IntendedKeysAreWords(c, s);
  }

  /** The one-letter input "a": as written it has no keys at all; as
      intended it counts the word "a" once. */
  lemma SingleLetterShowsInversion(c: Classes)
    requires Sane(c)
    requires !c.isPunct('a' as Rune) && !c.isSpace('a' as Rune) && c.toLower('a' as Rune) == 'a' as Rune
    ensures WordFrequency(c, ['a' as Rune]) == map[]
    ensures IntendedWordFrequency(c, ['a' as Rune]) == map[['a' as Rune] := 1]
  {
    var s: seq<Rune> := ['a' as Rune];
    NoPunctuationNoKeys(c, s);
    var t := IntendedRewrite(c, s);
    assert t == s;
    assert RunLength(c, t, NonSpace) == 1 by {
      assert t[1..] == [];
    }
    assert Fields(c, t) == [s] by {
      assert t[..1] == s;
      assert t[1..] == [];
      assert Runs(c, t[1..], NonSpace) == [];
    }
    var fs := Fields(c, t);
    assert fs[..0] == [];
    assert Count(fs) == map[][s := 1];
  }
}
